=== FILE: README.md ===
# Schema and column mappers of the Stratio Cassandra Lucene index, in Dafny

This project models the schema layer of the Stratio Lucene index for Cassandra. That layer turns the decoded columns of a Cassandra row into the fields of a Lucene document, and orders rows by structured column values. It covers three classes:

- **`ColumnMapperMgsPack`** maps a column holding a MessagePack document.
  - The value is converted to bytes: a `ByteBuffer`, a `byte[]`, or a hex string from which the first `0x`, wherever it occurs, is removed.
  - Those bytes are decoded.
  - The decoded value is flattened into one index field per leaf. Map keys become dotted names (`name.a.b`), arrays are transparent, and map nesting is cut off at a depth limit (2 by default).
  - Two columns are ordered by a total order across value kinds: nil < numbers < strings and booleans < everything else. Strings may be compared ignoring case.
- **`ColumnMapperText`** indexes any non-null value as its `toString`, as one unstored, analysed field. For a null value the Lucene `TextField` constructor throws IllegalArgumentException.
- **`Schema`**:
  - holds the mappers by name and builds the per-field analyser table;
  - validates the mappers against the table's column definitions;
  - resolves a dotted field name to the mapper of its longest registered prefix;
  - fills a Lucene `Document` from a row's columns.

The modules follow that structure:

| module | file | contents |
|---|---|---|
| `Base` | base.dfy | `Option` for Java null, `Result`/`Outcome` for thrown exceptions, the exception kinds, bytes |
| `JavaText` | java_text.dfy | the `java.lang.String` operations the code relies on: `toLowerCase`, `compareTo`, `compareToIgnoreCase`, `replaceFirst`, `split("\\.")`, and the dotted join |
| `Hex` | hex.dfy | Cassandra's `Hex.bytesToHex` / `Hex.hexToBytes` |
| `JavaObjects` | java_objects.dfy | the `Object` a column carries, and its `toString` |
| `Lucene`, `Cassandra`, `ColumnMapperBase` | lucene.dfy | fields, sort fields, analysers, the `Document` class, CQL types, column definitions, columns |
| `MsgPackValues` | msgpack_values.dfy | decoded MessagePack values |
| `ColumnMapperMgsPack` | column_mapper_mgspack.dfy | the MessagePack mapper |
| `ColumnMapperText` | column_mapper_text.dfy | the text mapper |
| `ColumnMappers` | column_mappers.dfy | a mapper of any kind, as the schema sees it |
| `Schemas` | schema.dfy | name resolution, validation, document filling, and the `Schema` class |

The pure code is modelled as functions: the mappers, `getMapper`, and the flattener, which is a recursive function returning a sequence.

The state-changing code is modelled imperatively:
- The `Schema` constructor fills its analyser table in a loop.
- `validate` loops over the mappers and stops at the first failure.
- `addFields` appends to a `Document` object, whose `fields` sequence it extends in place.

Each of these loops is proved against a specification function: `Emitted` for `addFields`, `IsAnalyzerTable` for the constructor, and `MapperError` for `validate`. Lemmas then prove what those functions promise. `Emitted` is the loop `EmittedBy` run with the per-column step `EmitColumn`; the lemmas about the loop itself hold for any per-column step.

A few consequences of the code as written are proved explicitly:

- **Name resolution.** `getMapper` drops trailing empty components (because of `split`) but keeps inner ones.
  - `"a."` never resolves to `a`.
  - `"a..b"` does not resolve to `a` either, because its parent name is `"a."` (`Schemas.EmptyComponentsStopResolution`).
  - The longest-prefix property therefore holds for names whose components are all non-empty.
- **Order of a row's fields.** `addFields` adds a column's key-name field before the mapper's fields.
  - A column whose name resolves to no mapper still contributes that field.
  - When a mapper throws, the key-name field stays in the document and no later column is processed.
- **Sorting.** An absent column sorts after every present one, while a present column that is nil or fails to decode sorts before every other value.

Three details of `addFields` matter:
- the mapper is looked up by the column's `name`, while its fields are emitted under `fieldName`;
- the key-name field is added only for a non-null, non-empty suffix;
- that field is added even when no mapper resolves.

## Model

| member | source | states |
|---|---|---|
| ColumnMapperMgsPack.New | src/java/com/stratio/cassandra/index/schema/ColumnMapperMgsPack.java:56-63 | an absent depth limit is `DEFAULT_DEPTH_LIMIT` (2) and a given one is kept; case-insensitivity holds only when explicitly `true` |
| ColumnMapperMgsPack.QueryValue | src/java/com/stratio/cassandra/index/schema/ColumnMapperMgsPack.java:77-83 | null exactly for null; otherwise a text no longer than the value's `toString` |
| ColumnMapperMgsPack.AsBytes | src/java/com/stratio/cassandra/index/schema/ColumnMapperMgsPack.java:256-270 | no bytes exactly for null; an exception on a `String` is a NumberFormatException; any other exception is the IllegalArgumentException, raised only for an object that is neither `ByteBuffer`, `byte[]` nor `String` |
| ColumnMapperMgsPack.Unpack | src/java/com/stratio/cassandra/index/schema/ColumnMapperMgsPack.java:244-254 | throws exactly what the byte conversion throws; null gives no value; converted bytes are handed to the decoder and its result returned |
| ColumnMapperMgsPack.AsBytesDispatch | src/java/com/stratio/cassandra/index/schema/ColumnMapperMgsPack.java:256-270 | null gives no bytes, a `ByteBuffer` or `byte[]` gives its bytes, and exactly the objects that are none of null, `ByteBuffer`, `byte[]`, `String` are rejected with the 'cannot be cast to byte array' IllegalArgumentException; a `String` throws exactly when its text, after removing the first `0x`, is not hex, and otherwise gives the bytes that text spells |
| ColumnMapperMgsPack.AsBytesReadsHex | src/java/com/stratio/cassandra/index/schema/ColumnMapperMgsPack.java:264-267 | a string spelling bytes in hex, with or without a leading `0x`, converts back to exactly those bytes |
| ColumnMapperMgsPack.RemoveMarkerFromHex | src/java/com/stratio/cassandra/index/schema/ColumnMapperMgsPack.java:266 | removing the first `0x` leaves hex text unchanged and strips a leading marker |
| ColumnMapperMgsPack.QueryValueShape | src/java/com/stratio/cassandra/index/schema/ColumnMapperMgsPack.java:77-83 | the query value is null exactly for null, is the lower-cased text when it holds no `0x`, and otherwise is that text with the two characters of its first `0x` cut out |
| ColumnMapperMgsPack.QueryFindsBinaryLeaf | src/java/com/stratio/cassandra/index/schema/ColumnMapperMgsPack.java:77-83 | querying with the hex text of a binary leaf, bare or marked `0x`/`0X`, yields exactly the text that was indexed for it |
| ColumnMapperMgsPack.Fields | src/java/com/stratio/cassandra/index/schema/ColumnMapperMgsPack.java:89-97 | throws exactly when the byte conversion throws, gives no fields for a value that does not decode, and otherwise flattens the decoded value from depth 0 |
| ColumnMapperMgsPack.Extract | src/java/com/stratio/cassandra/index/schema/ColumnMapperMgsPack.java:139-191 | every emitted field is named `name` or a dotted descendant `name.…` |
| ColumnMapperMgsPack.ExtractItems | src/java/com/stratio/cassandra/index/schema/ColumnMapperMgsPack.java:163-167 | every field of an array's elements is named `name` or a dotted descendant |
| ColumnMapperMgsPack.ExtractEntries | src/java/com/stratio/cassandra/index/schema/ColumnMapperMgsPack.java:174-186 | every field of a map's entries is a dotted descendant of `name` or `name` itself |
| ColumnMapperMgsPack.UnderNameTransitive | src/java/com/stratio/cassandra/index/schema/ColumnMapperMgsPack.java:180-181 | a descendant of a descendant of `name` is a descendant of `name` |
| ColumnMapperMgsPack.LeafFields | src/java/com/stratio/cassandra/index/schema/ColumnMapperMgsPack.java:142-161 | nil and extension values give nothing; booleans give `"true"`/`"false"`, numbers a double, strings their (optionally lower-cased) text, binaries their hex text, each as one field under the unchanged name |
| ColumnMapperMgsPack.ItemsAppend | src/java/com/stratio/cassandra/index/schema/ColumnMapperMgsPack.java:163-167 | the fields of concatenated element lists are the concatenation of their fields |
| ColumnMapperMgsPack.ArrayFields | src/java/com/stratio/cassandra/index/schema/ColumnMapperMgsPack.java:163-167 | arrays are transparent: an array's fields are its elements' fields in order, a one-element array gives its element's fields, and an empty one gives none |
| ColumnMapperMgsPack.EntriesAppend | src/java/com/stratio/cassandra/index/schema/ColumnMapperMgsPack.java:174-186 | the fields of concatenated entry lists are the concatenation of their fields |
| ColumnMapperMgsPack.MapFields | src/java/com/stratio/cassandra/index/schema/ColumnMapperMgsPack.java:168-187 | a map at or past the depth limit gives nothing; below it, entries contribute in order, a number, boolean or string key descends to `name.key` one level deeper, and any other key is skipped |
| ColumnMapperMgsPack.AtLimitNamesUnchanged | src/java/com/stratio/cassandra/index/schema/ColumnMapperMgsPack.java:163-172 | at or past the depth limit, every emitted field keeps exactly the name it was given |
| ColumnMapperMgsPack.ItemsAtLimitNamesUnchanged | src/java/com/stratio/cassandra/index/schema/ColumnMapperMgsPack.java:163-172 | the same for the elements of an array |
| ColumnMapperMgsPack.DepthLimitExample | src/java/com/stratio/cassandra/index/schema/ColumnMapperMgsPack.java:168-187 | with the default limit, `{"a": {"b": 1}}` gives `name.a.b = 1` and `{"a": {"b": {"c": 1}}}` gives nothing |
| ColumnMapperMgsPack.ArrayDepthExample | src/java/com/stratio/cassandra/index/schema/ColumnMapperMgsPack.java:163-187 | `{"a": [1, 2, {"b": 3}]}` gives `name.a = 1`, `name.a = 2`, `name.a.b = 3`, in that order |
| ColumnMapperMgsPack.SortField | src/java/com/stratio/cassandra/index/schema/ColumnMapperMgsPack.java:103-105 | a STRING sort on the given field in the given direction |
| ColumnMapperMgsPack.CompareValues | src/java/com/stratio/cassandra/index/schema/ColumnMapperMgsPack.java:193-242 | values of a lower kind (nil/none < numbers < strings and booleans < others) compare −1, of a higher kind 1; two nils 0; numbers by numeric order; texts by `compareTo` or `compareToIgnoreCase`; two others 0 |
| ColumnMapperMgsPack.Compare | src/java/com/stratio/cassandra/index/schema/ColumnMapperMgsPack.java:124-137 | two absent columns are equal, an absent column sorts after a present one, present ones compare by their decoded values, and a conversion exception from the first, then the second, column propagates |
| ColumnMapperMgsPack.CompareTextsIsLoweredCompare | src/java/com/stratio/cassandra/index/schema/ColumnMapperMgsPack.java:223-225 | the case-insensitive comparison is `compareTo` on the lower-cased texts |
| ColumnMapperMgsPack.CompareValuesAntisymmetric | src/java/com/stratio/cassandra/index/schema/ColumnMapperMgsPack.java:193-242 | swapping the arguments negates the result |
| ColumnMapperMgsPack.CompareValuesReflexive | src/java/com/stratio/cassandra/index/schema/ColumnMapperMgsPack.java:193-242 | every value compares equal to itself |
| ColumnMapperMgsPack.CompareValuesTransitive | src/java/com/stratio/cassandra/index/schema/ColumnMapperMgsPack.java:193-242 | "sorts no later than" is transitive, so the order is a total preorder |
| ColumnMapperMgsPack.IndexedLeavesOrderLikeCompareValues | src/java/com/stratio/cassandra/index/schema/ColumnMapperMgsPack.java:205-225 | two numbers, or two strings/booleans, compare exactly as the values of the fields indexed for them |
| ColumnMapperMgsPack.CompareAntisymmetric | src/java/com/stratio/cassandra/index/schema/ColumnMapperMgsPack.java:124-137 | swapping two columns negates the result when neither conversion throws |
| ColumnMapperMgsPack.AbsentAndNilOrderOpposite | src/java/com/stratio/cassandra/index/schema/ColumnMapperMgsPack.java:124-137 | a present nil or undecodable column sorts before any other value, while an absent column sorts after it |
| ColumnMapperText.SupportedTypes | src/java/com/stratio/cassandra/index/schema/ColumnMapperText.java:49-62 | exactly thirteen CQL types are supported; counter, decimal and custom types are not |
| ColumnMapperText.New | src/java/com/stratio/cassandra/index/schema/ColumnMapperText.java:63-70 | no class name gives the default analyser; a loadable class name gives that analyser; any other name throws IllegalArgumentException |
| ColumnMapperText.IndexValue | src/java/com/stratio/cassandra/index/schema/ColumnMapperText.java:81-91 | null exactly for null, otherwise the value's `toString` |
| ColumnMapperText.QueryValue | src/java/com/stratio/cassandra/index/schema/ColumnMapperText.java:95-98 | the same as the index value for every input, null exactly for null |
| ColumnMapperText.Fields | src/java/com/stratio/cassandra/index/schema/ColumnMapperText.java:102-106 | throws IllegalArgumentException exactly for null; otherwise exactly one unstored field, named `name`, holding the index value as analysed text |
| ColumnMapperText.SortField | src/java/com/stratio/cassandra/index/schema/ColumnMapperText.java:110-113 | a STRING sort on the given field in the given direction |
| ColumnMapperText.QueryMatchesIndexedText | src/java/com/stratio/cassandra/index/schema/ColumnMapperText.java:95-106 | a query built from a non-null value carries exactly the text indexed for that value; a null value gives no query text and cannot be indexed |
| ColumnMapperText.IndexValueExamples | test/unit/com/stratio/cassandra/index/schema/ColumnMapperTextTest.java:45-162 | null stays null; `3` gives `"3"`, `-42` gives `"-42"`, `"3.6"` and a UUID give their text; `fields("name", "hello")` is one unstored field `hello`; `fields("name", null)` throws IllegalArgumentException |
| ColumnMapperText.InvalidAnalyzerRejected | test/unit/com/stratio/cassandra/index/schema/ColumnMapperTextTest.java:29-43 | an unloadable analyser class makes construction throw; no class name gives the standard analyser |
| ColumnMappers.ModelledMappersHaveAnalyzers | src/java/com/stratio/cassandra/index/schema/ColumnMapperMgsPack.java:69-71 | text and MessagePack mappers always have an analyser, the MessagePack one the empty analyser |
| ColumnMappers.MgsPackTypesAreTextTypes | src/java/com/stratio/cassandra/index/schema/ColumnMapperMgsPack.java:60 | the MessagePack mapper supports exactly ascii, utf8 and bytes, all of which the text mapper supports |
| ColumnMappers.TextFieldsFailOnlyOnNull | src/java/com/stratio/cassandra/index/schema/ColumnMapperText.java:102-106 | a text mapper throws exactly for a null value, and otherwise emits one field |
| Schemas.Parent | src/java/com/stratio/cassandra/index/schema/Schema.java:185-193 | the rebuilt parent name followed by a dot is a proper prefix of the field name |
| Schemas.GetMapper | src/java/com/stratio/cassandra/index/schema/Schema.java:175-200 | what is found is one of the registered mappers |
| Schemas.GetMapperFindsDottedPrefix | src/java/com/stratio/cassandra/index/schema/Schema.java:175-200 | what is found is registered under the name itself or under a prefix ending just before a dot |
| Schemas.SplitOfProperJoin | src/java/com/stratio/cassandra/index/schema/Schema.java:180 | splitting a dotted name of non-empty components gives those components |
| Schemas.LongestPrefixMapperIsLongest | src/java/com/stratio/cassandra/index/schema/Schema.java:185-194 | the reference lookup finds a mapper exactly when some leading run of components is registered, and then the one of the longest run |
| Schemas.GetMapperIsLongestPrefix | src/java/com/stratio/cassandra/index/schema/Schema.java:177-194 | for names of non-empty components, `getMapper` equals the reference longest-prefix lookup |
| Schemas.GetMapperDropsLast | src/java/com/stratio/cassandra/index/schema/Schema.java:180-194 | on a miss, a name of two or more non-empty components resolves as the name without its last component |
| Schemas.GetMapperLongestPrefix | src/java/com/stratio/cassandra/index/schema/Schema.java:175-200 | for names of non-empty components, a mapper is found exactly when some leading run of components is registered, and it is the mapper of the longest such run |
| Schemas.GetMapperNestedExample | src/java/com/stratio/cassandra/index/schema/Schema.java:175-200 | an exact hit on `address`, and `address.city` resolved to the mapper of `address` |
| Schemas.GetMapperMissExample | test/unit/com/stratio/cassandra/index/schema/ColumnMapperTextTest.java:192-199 | `age` in an empty schema and an unregistered one-component name give null |
| Schemas.EmptyComponentsStopResolution | src/java/com/stratio/cassandra/index/schema/Schema.java:180-184 | with only `a` registered: `a` resolves, but `a.` and `a..b` give null |
| Schemas.MapperError | src/java/com/stratio/cassandra/index/schema/Schema.java:112-127 | no exception exactly when the column is defined, not static, and of a supported type; otherwise the first failed check in source order: a missing definition, then a static column, then an unsupported type, each with its own message |
| Schemas.SuffixFields | src/java/com/stratio/cassandra/index/schema/Schema.java:155-158 | one unstored exact field `(column name, suffix)` exactly when the suffix is non-null and non-empty |
| Schemas.EmitColumn | src/java/com/stratio/cassandra/index/schema/Schema.java:151-165 | a column's key-name field comes first; a column resolving to no mapper contributes only that field and never throws |
| Schemas.EmitMappedColumn | src/java/com/stratio/cassandra/index/schema/Schema.java:160-165 | a resolved mapper's fields follow the key-name field, and its exception leaves only the key-name field |
| Schemas.Emitted | src/java/com/stratio/cassandra/index/schema/Schema.java:147-167 | the fields of a non-empty row start with its first column's key-name field |
| Schemas.EmittedBy | src/java/com/stratio/cassandra/index/schema/Schema.java:149-166 | the fields of a non-empty row start with its first column's fields |
| Schemas.EmittedErrorNeedsMapper | src/java/com/stratio/cassandra/index/schema/Schema.java:154-165 | a row throws only if some column's name resolves to a mapper |
| Schemas.EmittedConcat | src/java/com/stratio/cassandra/index/schema/Schema.java:147-167 | for any per-column step, filling a row is filling a first part and then the rest, unless the first part throws, in which case the rest adds nothing |
| Schemas.EmittedOne | src/java/com/stratio/cassandra/index/schema/Schema.java:149-166 | a one-column row adds exactly that column's fields |
| Schemas.EmittedStep | src/java/com/stratio/cassandra/index/schema/Schema.java:149-166 | one more column appends that column's fields after those of the columns before it |
| Schemas.EmittedStops | src/java/com/stratio/cassandra/index/schema/Schema.java:147-167 | once a prefix of the row has thrown, the rest of the row adds nothing |
| Schemas.AddFieldsStep | src/java/com/stratio/cassandra/index/schema/Schema.java:149-166 | one pass of the loop extends the document by one column's fields, or ends the row with that column's exception |
| Schemas.TextSchemasFailOnlyOnNull | src/java/com/stratio/cassandra/index/schema/Schema.java:147-167 | a schema of text mappers only fills a row without throwing exactly when no column resolving to a mapper holds null, and otherwise throws IllegalArgumentException |
| Schemas.UnmappedColumnsAddOnlyKeyNames | src/java/com/stratio/cassandra/index/schema/Schema.java:155-165 | columns resolving to no mapper never throw, and every field they add is the unstored exact key-name field `(name, suffix)` of one of those columns |
| Schemas.Schema.constructor | src/java/com/stratio/cassandra/index/schema/Schema.java:83-95 | keeps the default analyser and mappers; the per-field table holds exactly the mappers with an analyser, with that analyser |
| Schemas.Schema.Create | src/java/com/stratio/cassandra/index/schema/Schema.java:67-96 | no class name gives `DEFAULT_ANALYZER`; an unloadable one throws IllegalArgumentException; otherwise a fresh schema with that analyser, those mappers and the per-field table |
| Schemas.Schema.Validate | src/java/com/stratio/cassandra/index/schema/Schema.java:103-129 | passes exactly when every mapper names a non-static column of a type it supports; otherwise throws the first failed check of some failing mapper |
| Schemas.Schema.AddKeyName | src/java/com/stratio/cassandra/index/schema/Schema.java:155-158 | appends the key-name field, if any, and nothing else |
| Schemas.Schema.AddAll | src/java/com/stratio/cassandra/index/schema/Schema.java:162-164 | appends the given fields in order |
| Schemas.Schema.AddColumn | src/java/com/stratio/cassandra/index/schema/Schema.java:151-165 | appends exactly what one column emits, and returns its exception, if any |
| Schemas.Schema.AddFields | src/java/com/stratio/cassandra/index/schema/Schema.java:147-167 | only appends: the document becomes its old fields followed by the row's emitted fields, and the result is the row's exception, if any |
| Lucene.TextField | src/java/com/stratio/cassandra/index/schema/ColumnMapperText.java:105 | throws IllegalArgumentException exactly for a null text; otherwise a field with the given name, store flag and analysed text |
| Lucene.GetAnalyzer | src/java/com/stratio/cassandra/index/schema/ColumnMapperText.java:65 | a loadable class name gives that analyser, any other throws IllegalArgumentException |
| Lucene.Document.Add | src/java/com/stratio/cassandra/index/schema/Schema.java:157 | appends one field at the end |
| Hex.BytesToHex | src/java/com/stratio/cassandra/index/schema/ColumnMapperMgsPack.java:161 | two lower-case hex digits per byte |
| Hex.HexToBytes | src/java/com/stratio/cassandra/index/schema/ColumnMapperMgsPack.java:267 | half as many bytes as characters, or NumberFormatException |
| Hex.HexRoundTrip | src/java/com/stratio/cassandra/index/schema/ColumnMapperMgsPack.java:267 | decoding the hex text of bytes gives the bytes back |
| Hex.HexIsLower | src/java/com/stratio/cassandra/index/schema/ColumnMapperMgsPack.java:161 | hex text is unchanged by lower-casing |
| Hex.HexHasNoMarker | src/java/com/stratio/cassandra/index/schema/ColumnMapperMgsPack.java:266 | hex text never contains `0x` |
| JavaText.Lower | src/java/com/stratio/cassandra/index/schema/ColumnMapperMgsPack.java:155 | same length, each character lower-cased |
| JavaText.IndexOf | src/java/com/stratio/cassandra/index/schema/ColumnMapperMgsPack.java:81 | the first position where the pattern occurs, or none when it occurs nowhere |
| JavaText.SplitAll | src/java/com/stratio/cassandra/index/schema/Schema.java:180 | at least one piece, no piece contains a dot, and joining the pieces with dots gives the text back |
| JavaText.Split | src/java/com/stratio/cassandra/index/schema/Schema.java:180 | a leading part of the dot-free pieces; a text without a dot is kept whole; otherwise exactly the trailing empty pieces are dropped, so a non-empty result does not end with an empty piece |
| JavaText.JoinAt | src/java/com/stratio/cassandra/index/schema/Schema.java:185-193 | a dotted join splits at any inner position into two dotted joins |
| JavaText.SplitAllJoin | src/java/com/stratio/cassandra/index/schema/Schema.java:180-193 | splitting a dotted join of dot-free pieces gives the pieces back |
| JavaText.CompareToAntisymmetric | src/java/com/stratio/cassandra/index/schema/ColumnMapperMgsPack.java:225 | `compareTo` negates when its arguments swap |
| JavaText.CompareToZeroIffEqual | src/java/com/stratio/cassandra/index/schema/ColumnMapperMgsPack.java:225 | `compareTo` is 0 exactly for equal texts |
| JavaText.CompareToTransitive | src/java/com/stratio/cassandra/index/schema/ColumnMapperMgsPack.java:225 | `compareTo` ≤ 0 is transitive |
| JavaText.IgnoreCaseComparesLowered | src/java/com/stratio/cassandra/index/schema/ColumnMapperMgsPack.java:224 | `compareToIgnoreCase` is `compareTo` on the lower-cased texts |

## Left out

- MessagePack decoding (`MessagePack.newDefaultUnpacker(…).unpackValue`) belongs to a library. It is the function parameter `unpack`, which returns no value where the library throws an IOException.
- ColumnMapperMgsPack.Unpack: a null column value has no bytes. The model gives it no value, as for a value that does not decode. The library's behaviour on a null array is not part of this model.
- ColumnMapperMgsPack.CompareValues: doubles are modelled as exact reals, so NaN, −0.0 and the rounding of large integers to `double` are not modelled.
- The decimal text of MessagePack floats used as map keys comes from the library's `toString`. The model carries that text with the value.
- Case mapping covers ASCII letters only. Characters are Dafny characters, not UTF-16 code units, so `compareTo` on surrogate pairs and locale-sensitive lower-casing are not modelled.
- `Hex.bytesToHex` and `Hex.hexToBytes` belong to Cassandra's utility classes, outside the modelled classes. They are given a concrete definition: lower-case output, either case accepted on input, and NumberFormatException on odd length or a bad digit.
- `ColumnMapper.supports` and the `STORE` and `EMPTY_ANALYZER` constants come from the `ColumnMapper` base class, which is not part of this model. `supports` is modelled as membership in the declared types; the unwrapping of collection element types is left out.
- `AnalyzerFactory.getAnalyzer` is not part of this model. It is a set of loadable class names: a loadable name gives that analyser and any other throws IllegalArgumentException.
- How Lucene's `PerFieldAnalyzerWrapper` looks up a field's analyser is not modelled. The model keeps the table that wrapper is built from. Of Lucene's `Field` checks, only the rejection of a null value by `TextField` is modelled.
- Mappers other than text and MessagePack (integer, string, boolean, blob) are not modelled. The schema sees them as data: an optional analyser, a set of types, and a function giving their fields.
- JSON construction (`Schema.fromJson`, the Jackson annotations), `toString`, `baseClass`, the `Log.info` call in `CompareValues`, and `printStackTrace` are left out as serialisation and logging.
- The `HashMap` iteration order of the constructor and of `validate` is unspecified. Both loops visit the names in an arbitrary order, so `Schemas.Schema.Validate` states only that the exception belongs to some failing mapper.
- RowServiceSkinny (storage reads, index upserts and deletes) and RowComparatorSorting (chains per-column comparators into a row order) are outside the modelled classes.

=== FILE: base.dfy ===
/** Wrappers standing for Java's null and for thrown exceptions, and the exceptions themselves. */
module Base {

  /** A Java reference that may be null. */
  datatype Option<+T> = None | Some(value: T)

  /** A call that either returns a value or throws an exception. */
  datatype Result<+T, +E> = Ok(value: T) | Err(error: E)

  /** A `void` call that either completes or throws an exception. */
  datatype Outcome<+E> = Pass | Fail(error: E)

  /** The exceptions the modelled code throws or lets through. */
  datatype JavaError =
    | IllegalArgument(message: string)   // IllegalArgumentException
    | NumberFormat                       // NumberFormatException from hex decoding
    | Runtime(message: string)           // RuntimeException

  /** A byte, as an unsigned value. */
  type Byte = x: int | 0 <= x < 256
}

=== FILE: column_mapper_mgspack.dfy ===
/**
  The mapper for columns holding MessagePack-encoded structured values
  (ColumnMapperMgsPack.java): a decoded value is flattened into one index
  field per leaf, nested map keys becoming dotted names, and two columns are
  ordered by a total order across value kinds.
 */
module ColumnMapperMgsPack {
  import opened Base
  import opened JavaText
  import opened Hex
  import opened JavaObjects
  import opened Lucene
  import opened Cassandra
  import opened MsgPackValues
  import opened ColumnMapperBase

  const DEFAULT_DEPTH_LIMIT: int := 2

  /** The two options of the mapper: how many map levels are flattened, and case folding of strings. */
  datatype MgsPackMapper = MgsPackMapper(fieldDepthLimit: int, caseInsensitiveStrings: bool)

  /** The CQL types the mapper declares it supports. */
  const SUPPORTED_TYPES: set<CqlType> := {Ascii, UTF8, Bytes}

  /** The constructor: an absent option takes its default. */
  function New(depthLimit: Option<int>, caseInsensitiveStrings: Option<bool>): (m: MgsPackMapper)
    ensures depthLimit.None? ==> m.fieldDepthLimit == DEFAULT_DEPTH_LIMIT
    ensures depthLimit.Some? ==> m.fieldDepthLimit == depthLimit.value
    ensures m.caseInsensitiveStrings <==> caseInsensitiveStrings == Some(true)
  {
    MgsPackMapper(
      if depthLimit.None? then DEFAULT_DEPTH_LIMIT else depthLimit.value,
      caseInsensitiveStrings.Some? && caseInsensitiveStrings.value)
  }

  // ---------------------------------------------------------------------------
  // Query values and byte conversion
  // ---------------------------------------------------------------------------

  /** `queryValue`: the lower-cased text of the value with its first "0x" removed. */
  function QueryValue(value: JavaObject): (r: Option<string>)
    ensures r.None? <==> value.Null?
    ensures r.Some? ==> |r.value| <= |ToString(value)|
  {
    if value.Null? then None else Some(ReplaceFirst(Lower(ToString(value)), "0x", ""))
  }

  /** `asBytes`: the argument dispatch that turns a column value into the bytes to decode. */
  function AsBytes(value: JavaObject): (r: Result<Option<seq<Byte>>, JavaError>)
    ensures r == Ok(None) <==> value.Null?
    ensures r.Err? && value.JString? ==> r.error == NumberFormat
    ensures r.Err? && !value.JString? ==> (value.JInteger? || value.JOther?) && r.error.IllegalArgument?
  {
    match value
    case Null => Ok(None)
    case JByteBuffer(bytes, _) => Ok(Some(bytes))
    case JByteArray(bytes, _) => Ok(Some(bytes))
    case JString(s) =>
      (match HexToBytes(ReplaceFirst(s, "0x", ""))
       case Ok(bytes) => Ok(Some(bytes))
       case Err(e) => Err(e))
    case _ => Err(IllegalArgument("Value '" + ToString(value) + "' cannot be cast to byte array"))
  }

  /**
    `Unpack`: decode the bytes of a value; a decoding failure gives None, as
    the IOException handler does. A null value has no bytes and is given None.
   */
  function Unpack(unpack: Unpacker, value: JavaObject): (r: Result<Option<MsgValue>, JavaError>)
    ensures r.Err? <==> AsBytes(value).Err?
    ensures r.Err? ==> r.error == AsBytes(value).error
    ensures value.Null? ==> r == Ok(None)
    ensures AsBytes(value).Ok? && AsBytes(value).value.Some? ==> r == Ok(unpack(AsBytes(value).value.value))
  {
    match AsBytes(value)
    case Err(e) => Err(e)
    case Ok(None) => Ok(None)
    case Ok(Some(bytes)) => Ok(unpack(bytes))
  }

  // ---------------------------------------------------------------------------
  // Flattening
  // ---------------------------------------------------------------------------

  /** `fieldName` is `name` itself or a dotted descendant of it. */
  predicate UnderName(fieldName: string, name: string) {
    fieldName == name || (|fieldName| > |name| && fieldName[..|name| + 1] == name + ".")
  }

  lemma UnderNameTransitive(f: string, child: string, name: string)
    requires UnderName(f, child) && UnderName(child, name)
    ensures UnderName(f, name)
  {
    if f != child && child != name {
      assert f[..|name| + 1] == f[..|child| + 1][..|name| + 1];
    }
  }

  /** `extractFields`: the index fields of a decoded value reached at map depth `depth`. */
  function Extract(m: MgsPackMapper, name: string, v: MsgValue, depth: int): (fields: seq<Field>)
    decreases v
    ensures forall i :: 0 <= i < |fields| ==> UnderName(fields[i].name, name)
  {
    match v
    case Nil => []
    case Extended(_, _) => []
    case Boolean(b) => [StringField(name, BooleanText(b), STORE)]
    case Integer(_) => [DoubleField(name, NumberOf(v), STORE)]
    case Float(_, _) => [DoubleField(name, NumberOf(v), STORE)]
    case Str(s) => [StringField(name, if m.caseInsensitiveStrings then Lower(s) else s, STORE)]
    case Binary(bytes) => [StringField(name, BytesToHex(bytes), STORE)]
    case Array(items) => ExtractItems(m, name, items, depth)
    case Map(entries) => if depth >= m.fieldDepthLimit then [] else ExtractEntries(m, name, entries, depth)
  }

  /** The fields of the elements of an array, in order, under the array's own name and depth. */
  function ExtractItems(m: MgsPackMapper, name: string, items: seq<MsgValue>, depth: int): (fields: seq<Field>)
    decreases items
    ensures forall i :: 0 <= i < |fields| ==> UnderName(fields[i].name, name)
  {
    if items == [] then []
    else Extract(m, name, items[0], depth) + ExtractItems(m, name, items[1..], depth)
  }

  /** The fields of the entries of a map, in order; an entry whose key is not a number, boolean or string is skipped. */
  function ExtractEntries(m: MgsPackMapper, name: string, entries: seq<(MsgValue, MsgValue)>, depth: int): (fields: seq<Field>)
    decreases entries
    ensures forall i :: 0 <= i < |fields| ==> UnderName(fields[i].name, name)
  {
    if entries == [] then []
    else
      var e := entries[0];
      assert e in entries && e.1 < e;
      var rest := ExtractEntries(m, name, entries[1..], depth);
      if IsKey(e.0) then
        var child := name + "." + KeyText(e.0);
        var own := Extract(m, child, e.1, depth + 1);
        assert forall i :: 0 <= i < |own| ==> UnderName(own[i].name, name) by {
          forall i | 0 <= i < |own| ensures UnderName(own[i].name, name) {
            assert child[..|name| + 1] == name + ".";
            UnderNameTransitive(own[i].name, child, name);
          }
        }
        own + rest
      else rest
  }

  /** `fields`: an undecodable value gives no field; otherwise extraction starts at depth 0. */
  function Fields(m: MgsPackMapper, unpack: Unpacker, name: string, value: JavaObject): (r: Result<seq<Field>, JavaError>)
    ensures Unpack(unpack, value).Err? <==> r.Err?
    ensures Unpack(unpack, value) == Ok(None) ==> r == Ok([])
    ensures Unpack(unpack, value).Ok? && Unpack(unpack, value).value.Some? ==>
              r == Ok(Extract(m, name, Unpack(unpack, value).value.value, 0))
  {
    match Unpack(unpack, value)
    case Err(e) => Err(e)
    case Ok(None) => Ok([])
    case Ok(Some(v)) => Ok(Extract(m, name, v, 0))
  }

  /** `sortField`: string sorting in the requested direction. */
  function SortField(field: string, reverse: bool): (r: Lucene.SortField)
    ensures r.field == field && r.sortType == STRING && r.reverse == reverse
  {
    Lucene.SortField(field, STRING, reverse)
  }

  // ---------------------------------------------------------------------------
  // Ordering
  // ---------------------------------------------------------------------------

  /** The class a value falls into: null or nil, then numbers, then strings and booleans, then the rest. */
  function Rank(v: Option<MsgValue>): int {
    if v.None? || v.value.Nil? then 0
    else if IsNumber(v.value) then 1
    else if IsTextual(v.value) then 2
    else 3
  }

  /** `Double.compare` on the exact values. */
  function CompareNumbers(x: real, y: real): int {
    if x < y then -1 else if x > y then 1 else 0
  }

  /** The comparison of two texts that `CompareValues` uses. */
  function CompareTexts(m: MgsPackMapper, a: string, b: string): int {
    if m.caseInsensitiveStrings then CompareToIgnoreCase(a, b) else CompareTo(a, b)
  }

  /** `CompareValues`: a total order across value kinds; null stands for a value that did not decode. */
  function CompareValues(m: MgsPackMapper, a: Option<MsgValue>, b: Option<MsgValue>): (r: int)
    ensures Rank(a) < Rank(b) ==> r == -1
    ensures Rank(a) > Rank(b) ==> r == 1
    ensures Rank(a) == Rank(b) == 0 ==> r == 0
    ensures Rank(a) == Rank(b) == 1 ==>
              (r < 0 <==> NumberOf(a.value) < NumberOf(b.value)) &&
              (r == 0 <==> NumberOf(a.value) == NumberOf(b.value))
    ensures Rank(a) == Rank(b) == 2 ==> r == CompareTexts(m, TextOf(a.value), TextOf(b.value))
    ensures Rank(a) == Rank(b) == 3 ==> r == 0
  {
    if a.None? || a.value.Nil? then
      (if b.None? || b.value.Nil? then 0 else -1)
    else if b.None? || b.value.Nil? then 1
    else
      var x, y := a.value, b.value;
      if IsNumber(x) then
        (if IsNumber(y) then CompareNumbers(NumberOf(x), NumberOf(y)) else -1)
      else if IsTextual(x) then
        (if IsNumber(y) then 1
         else if IsTextual(y) then CompareTexts(m, TextOf(x), TextOf(y))
         else -1)
      else
        (if IsNumber(y) || IsTextual(y) then 1 else 0)
  }

  /** `Compare`: an absent column sorts after every present one; present columns compare by their decoded values. */
  function Compare(m: MgsPackMapper, unpack: Unpacker, col1: Option<Column>, col2: Option<Column>): (r: Result<int, JavaError>)
    ensures col1.None? ==> r == Ok(if col2.None? then 0 else 1)
    ensures col1.Some? && col2.None? ==> r == Ok(-1)
    ensures col1.Some? && col2.Some? ==>
              match (Unpack(unpack, col1.value.value), Unpack(unpack, col2.value.value))
              case (Ok(a), Ok(b)) => r == Ok(CompareValues(m, a, b))
              case (Err(e), _) => r == Err(e)
              case (Ok(_), Err(e)) => r == Err(e)
  {
    if col1.None? then Ok(if col2.None? then 0 else 1)
    else if col2.None? then Ok(-1)
    else
      match Unpack(unpack, col1.value.value)
      case Err(e) => Err(e)
      case Ok(a) =>
        match Unpack(unpack, col2.value.value)
        case Err(e) => Err(e)
        case Ok(b) => Ok(CompareValues(m, a, b))
  }

  // ---------------------------------------------------------------------------
  // Properties of the flattener
  // ---------------------------------------------------------------------------

  /** Nil and extension values give nothing; every other leaf gives one field under the unchanged name. */
  lemma LeafFields(m: MgsPackMapper, name: string, v: MsgValue, depth: int)
    ensures v.Nil? || v.Extended? ==> Extract(m, name, v, depth) == []
    ensures v.Boolean? ==>
              Extract(m, name, v, depth) == [StringField(name, if v.b then "true" else "false", STORE)]
    ensures IsNumber(v) ==> Extract(m, name, v, depth) == [DoubleField(name, NumberOf(v), STORE)]
    ensures v.Str? && m.caseInsensitiveStrings ==> Extract(m, name, v, depth) == [StringField(name, Lower(v.s), STORE)]
    ensures v.Str? && !m.caseInsensitiveStrings ==> Extract(m, name, v, depth) == [StringField(name, v.s, STORE)]
    ensures v.Binary? ==> Extract(m, name, v, depth) == [StringField(name, BytesToHex(v.bytes), STORE)]
  {
  }

  lemma {:induction false} ItemsAppend(m: MgsPackMapper, name: string, a: seq<MsgValue>, b: seq<MsgValue>, depth: int)
    ensures ExtractItems(m, name, a + b, depth) == ExtractItems(m, name, a, depth) + ExtractItems(m, name, b, depth)
  {
    if a == [] {
      assert a + b == b;
    } else {
      assert (a + b)[0] == a[0] && (a + b)[1..] == a[1..] + b;
      ItemsAppend(m, name, a[1..], b, depth);
    }
  }

  /**
    An array is transparent: its fields are those of its elements, in order,
    under the same name and at the same depth.
   */
  lemma ArrayFields(m: MgsPackMapper, name: string, a: seq<MsgValue>, b: seq<MsgValue>, v: MsgValue, depth: int)
    ensures Extract(m, name, Array(a + b), depth) == Extract(m, name, Array(a), depth) + Extract(m, name, Array(b), depth)
    ensures Extract(m, name, Array([v]), depth) == Extract(m, name, v, depth)
    ensures Extract(m, name, Array([]), depth) == []
  {
    assert Extract(m, name, Array(a + b), depth) == Extract(m, name, Array(a), depth) + Extract(m, name, Array(b), depth) by {
      ItemsAppend(m, name, a, b, depth);
      assert Extract(m, name, Array(a + b), depth) == ExtractItems(m, name, a + b, depth);
      assert Extract(m, name, Array(a), depth) == ExtractItems(m, name, a, depth);
      assert Extract(m, name, Array(b), depth) == ExtractItems(m, name, b, depth);
    }
    assert Extract(m, name, Array([v]), depth) == Extract(m, name, v, depth) by {
      assert [v][1..] == [];
      assert ExtractItems(m, name, [v], depth) == Extract(m, name, v, depth) + ExtractItems(m, name, [], depth);
      assert Extract(m, name, v, depth) + [] == Extract(m, name, v, depth);
    }
  }

  lemma {:induction false} EntriesAppend(m: MgsPackMapper, name: string, a: seq<(MsgValue, MsgValue)>, b: seq<(MsgValue, MsgValue)>, depth: int)
    ensures ExtractEntries(m, name, a + b, depth) == ExtractEntries(m, name, a, depth) + ExtractEntries(m, name, b, depth)
  {
    if a == [] {
      assert a + b == b;
    } else {
      assert (a + b)[0] == a[0] && (a + b)[1..] == a[1..] + b;
      EntriesAppend(m, name, a[1..], b, depth);
    }
  }

  /**
    A map at or beyond the depth limit gives nothing. Below it, its fields are
    those of its entries in order; an entry with a number, boolean or string
    key is flattened under `name.key` one level deeper, any other entry is skipped.
   */
  lemma MapFields(m: MgsPackMapper, name: string, a: seq<(MsgValue, MsgValue)>, b: seq<(MsgValue, MsgValue)>,
                  key: MsgValue, val: MsgValue, depth: int)
    ensures depth >= m.fieldDepthLimit ==> Extract(m, name, Map(a), depth) == []
    ensures depth < m.fieldDepthLimit ==>
              Extract(m, name, Map(a + b), depth) == Extract(m, name, Map(a), depth) + Extract(m, name, Map(b), depth)
    ensures depth < m.fieldDepthLimit && IsKey(key) ==>
              Extract(m, name, Map([(key, val)]), depth) == Extract(m, name + "." + KeyText(key), val, depth + 1)
    ensures !IsKey(key) ==> Extract(m, name, Map([(key, val)]), depth) == []
  {
    if depth < m.fieldDepthLimit {
      assert Extract(m, name, Map(a + b), depth) == Extract(m, name, Map(a), depth) + Extract(m, name, Map(b), depth) by {
        EntriesAppend(m, name, a, b, depth);
        assert Extract(m, name, Map(a + b), depth) == ExtractEntries(m, name, a + b, depth);
        assert Extract(m, name, Map(a), depth) == ExtractEntries(m, name, a, depth);
        assert Extract(m, name, Map(b), depth) == ExtractEntries(m, name, b, depth);
      }
    }
    var single := [(key, val)];
    assert ExtractEntries(m, name, single, depth)
           == if IsKey(key) then Extract(m, name + "." + KeyText(key), val, depth + 1) else [] by {
      assert single[1..] == [] && single[0] == (key, val);
      assert ExtractEntries(m, name, [], depth) == [];
    }
  }

  /** Once the depth limit is reached, every field keeps exactly the name it was given. */
  lemma {:induction false} AtLimitNamesUnchanged(m: MgsPackMapper, name: string, v: MsgValue, depth: int)
    requires depth >= m.fieldDepthLimit
    ensures forall i :: 0 <= i < |Extract(m, name, v, depth)| ==> Extract(m, name, v, depth)[i].name == name
    decreases v
  {
    if v.Array? {
      ItemsAtLimitNamesUnchanged(m, name, v.items, depth);
    }
  }

  lemma {:induction false} ItemsAtLimitNamesUnchanged(m: MgsPackMapper, name: string, items: seq<MsgValue>, depth: int)
    requires depth >= m.fieldDepthLimit
    ensures forall i :: 0 <= i < |ExtractItems(m, name, items, depth)| ==> ExtractItems(m, name, items, depth)[i].name == name
    decreases items
  {
    if items != [] {
      AtLimitNamesUnchanged(m, name, items[0], depth);
      ItemsAtLimitNamesUnchanged(m, name, items[1..], depth);
    }
  }

  /** A map of one string key, below the depth limit, gives its value's fields under the dotted name. */
  lemma OneEntry(m: MgsPackMapper, name: string, key: string, child: string, val: MsgValue, depth: int)
    requires depth < m.fieldDepthLimit && child == name + "." + key
    ensures Extract(m, name, Map([(Str(key), val)]), depth) == Extract(m, child, val, depth + 1)
  {
    MapFields(m, name, [], [], Str(key), val, depth);
  }

  /** An array of three values gives their fields in order. */
  lemma ThreeItems(m: MgsPackMapper, name: string, a: MsgValue, b: MsgValue, c: MsgValue, depth: int)
    ensures Extract(m, name, Array([a, b, c]), depth)
              == Extract(m, name, a, depth) + (Extract(m, name, b, depth) + Extract(m, name, c, depth))
  {
    var x, y, z := Extract(m, name, a, depth), Extract(m, name, b, depth), Extract(m, name, c, depth);
    assert ExtractItems(m, name, [c], depth) == z by {
      assert [c][1..] == [];
      assert z + [] == z;
    }
    assert ExtractItems(m, name, [b, c], depth) == y + z by {
      assert [b, c][1..] == [c];
    }
    assert ExtractItems(m, name, [a, b, c], depth) == x + (y + z) by {
      assert [a, b, c][1..] == [b, c];
    }
  }

  /** An integer leaf gives one numeric field. */
  lemma IntegerLeaf(m: MgsPackMapper, name: string, i: int, depth: int)
    ensures Extract(m, name, Integer(i), depth) == [DoubleField(name, i as real, STORE)]
  {
    LeafFields(m, name, Integer(i), depth);
  }

  /** With the default limit of 2, a leaf two maps deep is indexed and one three maps deep is not. */
  lemma DepthLimitExample()
    ensures var m := New(None, None);
            Extract(m, "name", Map([(Str("a"), Map([(Str("b"), Integer(1))]))]), 0)
              == [DoubleField("name.a.b", 1.0, STORE)]
    ensures var m := New(None, None);
            Extract(m, "name", Map([(Str("a"), Map([(Str("b"), Map([(Str("c"), Integer(1))]))]))]), 0) == []
  {
    var m := New(None, None);
    var leaf := Integer(1);
    var deep := Map([(Str("c"), leaf)]);
    // {"a": {"b": 1}}
    OneEntry(m, "name", "a", "name.a", Map([(Str("b"), leaf)]), 0);
    OneEntry(m, "name.a", "b", "name.a.b", leaf, 1);
    IntegerLeaf(m, "name.a.b", 1, 2);
    // {"a": {"b": {"c": 1}}}
    OneEntry(m, "name", "a", "name.a", Map([(Str("b"), deep)]), 0);
    OneEntry(m, "name.a", "b", "name.a.b", deep, 1);
    MapFields(m, "name.a.b", [(Str("c"), leaf)], [], Str("c"), leaf, 2);
  }

  /** Arrays do not use up depth: `{"a": [1, 2, {"b": 3}]}` gives `name.a` twice and `name.a.b`. */
  lemma ArrayDepthExample()
    ensures var m := New(None, None);
            Extract(m, "name", Map([(Str("a"), Array([Integer(1), Integer(2), Map([(Str("b"), Integer(3))])]))]), 0)
              == [DoubleField("name.a", 1.0, STORE), DoubleField("name.a", 2.0, STORE), DoubleField("name.a.b", 3.0, STORE)]
  {
    var m := New(None, None);
    var inner := Map([(Str("b"), Integer(3))]);
    var f1, f2, f3 := DoubleField("name.a", 1.0, STORE), DoubleField("name.a", 2.0, STORE), DoubleField("name.a.b", 3.0, STORE);
    assert Extract(m, "name.a", inner, 1) == [f3] by {
      OneEntry(m, "name.a", "b", "name.a.b", Integer(3), 1);
      IntegerLeaf(m, "name.a.b", 3, 2);
    }
    assert Extract(m, "name.a", Array([Integer(1), Integer(2), inner]), 1) == [f1] + ([f2] + [f3]) by {
      ThreeItems(m, "name.a", Integer(1), Integer(2), inner, 1);
      IntegerLeaf(m, "name.a", 1, 1);
      IntegerLeaf(m, "name.a", 2, 1);
    }
    assert [f1] + ([f2] + [f3]) == [f1, f2, f3];
    OneEntry(m, "name", "a", "name.a", Array([Integer(1), Integer(2), inner]), 0);
  }

  // ---------------------------------------------------------------------------
  // Properties of the ordering
  // ---------------------------------------------------------------------------

  lemma CompareTextsIsLoweredCompare(m: MgsPackMapper, a: string, b: string)
    ensures CompareTexts(m, a, b) == if m.caseInsensitiveStrings then CompareTo(Lower(a), Lower(b)) else CompareTo(a, b)
  {
    IgnoreCaseComparesLowered(a, b);
  }

  /** Swapping the arguments negates the result. */
  lemma CompareValuesAntisymmetric(m: MgsPackMapper, a: Option<MsgValue>, b: Option<MsgValue>)
    ensures CompareValues(m, a, b) == -CompareValues(m, b, a)
  {
    if Rank(a) == Rank(b) == 2 {
      var x, y := TextOf(a.value), TextOf(b.value);
      CompareTextsIsLoweredCompare(m, x, y);
      CompareTextsIsLoweredCompare(m, y, x);
      CompareToAntisymmetric(x, y);
      CompareToAntisymmetric(Lower(x), Lower(y));
    }
  }

  lemma CompareValuesReflexive(m: MgsPackMapper, a: Option<MsgValue>)
    ensures CompareValues(m, a, a) == 0
  {
    if Rank(a) == 2 {
      var x := TextOf(a.value);
      CompareTextsIsLoweredCompare(m, x, x);
      CompareToZeroIffEqual(x, x);
      CompareToZeroIffEqual(Lower(x), Lower(x));
    }
  }

  /** "Sorts no later than" is transitive, so the order is a total preorder. */
  lemma CompareValuesTransitive(m: MgsPackMapper, a: Option<MsgValue>, b: Option<MsgValue>, c: Option<MsgValue>)
    requires CompareValues(m, a, b) <= 0 && CompareValues(m, b, c) <= 0
    ensures CompareValues(m, a, c) <= 0
  {
    if Rank(a) == Rank(b) == Rank(c) == 2 {
      var x, y, z := TextOf(a.value), TextOf(b.value), TextOf(c.value);
      CompareTextsIsLoweredCompare(m, x, y);
      CompareTextsIsLoweredCompare(m, y, z);
      CompareTextsIsLoweredCompare(m, x, z);
      if m.caseInsensitiveStrings {
        CompareToTransitive(Lower(x), Lower(y), Lower(z));
      } else {
        CompareToTransitive(x, y, z);
      }
    }
  }

  /**
    What is indexed agrees with how values are ordered: two numbers compare as
    the numbers of their fields, and two strings or booleans compare as the
    texts of their fields (already lower-cased when case is ignored).
   */
  lemma IndexedLeavesOrderLikeCompareValues(m: MgsPackMapper, a: MsgValue, b: MsgValue, na: string, nb: string, da: int, db: int)
    ensures IsNumber(a) && IsNumber(b) ==>
              CompareValues(m, Some(a), Some(b))
                == CompareNumbers(Extract(m, na, a, da)[0].value.number, Extract(m, nb, b, db)[0].value.number)
    ensures IsTextual(a) && IsTextual(b) ==>
              CompareValues(m, Some(a), Some(b))
                == CompareTo(Extract(m, na, a, da)[0].value.text, Extract(m, nb, b, db)[0].value.text)
  {
    LeafFields(m, na, a, da);
    LeafFields(m, nb, b, db);
    if IsTextual(a) && IsTextual(b) {
      var x, y := TextOf(a), TextOf(b);
      CompareTextsIsLoweredCompare(m, x, y);
      assert Lower("true") == "true" && Lower("false") == "false";
    }
  }

  /** Swapping two columns negates the result when neither decoding throws. */
  lemma CompareAntisymmetric(m: MgsPackMapper, unpack: Unpacker, c1: Option<Column>, c2: Option<Column>)
    requires Compare(m, unpack, c1, c2).Ok? && Compare(m, unpack, c2, c1).Ok?
    ensures Compare(m, unpack, c1, c2).value == -Compare(m, unpack, c2, c1).value
  {
    if c1.Some? && c2.Some? {
      CompareValuesAntisymmetric(m, Unpack(unpack, c1.value.value).value, Unpack(unpack, c2.value.value).value);
    }
  }

  /**
    An absent column sorts last, while a present column whose value is nil or
    does not decode sorts first.
   */
  lemma AbsentAndNilOrderOpposite(m: MgsPackMapper, unpack: Unpacker, c: Column, d: Column)
    requires Unpack(unpack, c.value) == Ok(None) || Unpack(unpack, c.value) == Ok(Some(Nil))
    requires Unpack(unpack, d.value).Ok? && Rank(Unpack(unpack, d.value).value) > 0
    ensures Compare(m, unpack, Some(c), Some(d)) == Ok(-1)
    ensures Compare(m, unpack, None, Some(d)) == Ok(1)
    ensures Compare(m, unpack, Some(d), None) == Ok(-1)
  {
  }

  // ---------------------------------------------------------------------------
  // Properties of query values and byte conversion
  // ---------------------------------------------------------------------------

  /** A query value is the lower-cased text, shortened by exactly the first "0x" if there is one. */
  lemma QueryValueShape(value: JavaObject)
    ensures value.Null? <==> QueryValue(value).None?
    ensures !value.Null? && IndexOf(Lower(ToString(value)), "0x").None? ==>
              QueryValue(value) == Some(Lower(ToString(value)))
    ensures !value.Null? && IndexOf(Lower(ToString(value)), "0x").Some? ==>
              |QueryValue(value).value| == |ToString(value)| - 2
    ensures !value.Null? && IndexOf(Lower(ToString(value)), "0x").Some? ==>
              var t, i := Lower(ToString(value)), IndexOf(Lower(ToString(value)), "0x").value;
              QueryValue(value) == Some(t[..i] + t[i + 2..])
  {
    if !value.Null? && IndexOf(Lower(ToString(value)), "0x").Some? {
      var t, i := Lower(ToString(value)), IndexOf(Lower(ToString(value)), "0x").value;
      assert t[..i] + "" + t[i + 2..] == t[..i] + t[i + 2..];
    }
  }

  /** Removing the first "0x" from hex text leaves it unchanged, and strips a leading marker. */
  lemma RemoveMarkerFromHex(bytes: seq<Byte>)
    ensures ReplaceFirst(BytesToHex(bytes), "0x", "") == BytesToHex(bytes)
    ensures ReplaceFirst("0x" + BytesToHex(bytes), "0x", "") == BytesToHex(bytes)
  {
    var hex := BytesToHex(bytes);
    HexHasNoMarker(bytes);
    assert OccursAt("0x" + hex, "0x", 0);
    assert IndexOf("0x" + hex, "0x") == Some(0);
    assert ("0x" + hex)[2..] == hex;
  }

  /**
    A binary leaf is found by querying its hex text, with or without a "0x"
    or "0X" marker: the query value is exactly the indexed text.
   */
  lemma QueryFindsBinaryLeaf(m: MgsPackMapper, name: string, bytes: seq<Byte>, marker: string, depth: int)
    requires marker in {"", "0x", "0X"}
    ensures QueryValue(JString(marker + BytesToHex(bytes))) == Some(Extract(m, name, Binary(bytes), depth)[0].value.text)
  {
    var hex := BytesToHex(bytes);
    LeafFields(m, name, Binary(bytes), depth);
    LowerMarkedHex(bytes, marker);
    RemoveMarkerFromHex(bytes);
  }

  /** Lower-casing a hex text with a marker changes at most the marker, to "0x". */
  lemma LowerMarkedHex(bytes: seq<Byte>, marker: string)
    requires marker in {"", "0x", "0X"}
    ensures marker == "" ==> Lower(marker + BytesToHex(bytes)) == BytesToHex(bytes)
    ensures marker != "" ==> Lower(marker + BytesToHex(bytes)) == "0x" + BytesToHex(bytes)
  {
    var hex := BytesToHex(bytes);
    HexIsLower(bytes);
    LowerAppend(marker, hex);
    if marker == "" {
      assert marker + hex == hex;
    } else {
      assert LowerChar('0') == '0' && LowerChar('x') == 'x' && LowerChar('X') == 'x';
      assert Lower(marker) == "0x";
    }
  }

  /** A hex string, with or without a leading "0x", converts to the bytes it spells. */
  lemma AsBytesReadsHex(bytes: seq<Byte>, marker: string)
    requires marker in {"", "0x"}
    ensures AsBytes(JString(marker + BytesToHex(bytes))) == Ok(Some(bytes))
  {
    HexRoundTrip(bytes);
    RemoveMarkerFromHex(bytes);
    if marker == "" {
      assert marker + BytesToHex(bytes) == BytesToHex(bytes);
    }
  }

  /** Only objects other than null, ByteBuffer, byte[] and String are rejected as IllegalArgumentException. */
  lemma AsBytesDispatch(value: JavaObject)
    ensures (AsBytes(value).Err? && AsBytes(value).error.IllegalArgument?) <==> (value.JInteger? || value.JOther?)
    ensures value.Null? ==> AsBytes(value) == Ok(None)
    ensures value.JByteArray? || value.JByteBuffer? ==> AsBytes(value) == Ok(Some(value.bytes))
    ensures value.JString? ==> (AsBytes(value).Err? <==> HexToBytes(ReplaceFirst(value.s, "0x", "")).Err?)
    ensures value.JString? && AsBytes(value).Ok? ==>
              AsBytes(value) == Ok(Some(HexToBytes(ReplaceFirst(value.s, "0x", "")).value))
  {
  }
}

=== FILE: column_mapper_text.dfy ===
/**
  The mapper for analysed text columns (ColumnMapperText.java): any value is
  indexed as its `toString`, as one tokenized field, with the analyser chosen
  at construction.
 */
module ColumnMapperText {
  import opened Base
  import opened JavaObjects
  import opened Lucene
  import opened Cassandra
  import opened ColumnMapperBase

  /** The only state of the mapper: its analyser, fixed at construction. */
  datatype TextMapper = TextMapper(analyzer: Analyzer)

  /** The CQL types the mapper declares it supports. */
  const SUPPORTED_TYPES: set<CqlType> :=
    {Ascii, UTF8, Int32, Long, Varint, FloatType, DoubleType, BooleanType,
     UUIDType, TimeUUIDType, Timestamp, Bytes, Inet}

  /** Exactly thirteen types are supported, and counters, decimals and custom types are not. */
  lemma SupportedTypes(t: CqlType)
    ensures |SUPPORTED_TYPES| == 13
    ensures t in SUPPORTED_TYPES <==> !(t.Counter? || t.Decimal? || t.Custom?)
  {
  }

  /**
    The constructor: no class name means `Schema.DEFAULT_ANALYZER`; a class
    name the analyser factory cannot load is an IllegalArgumentException.
   */
  function New(analyzerClassName: Option<string>, loadable: set<string>): (r: Result<TextMapper, JavaError>)
    ensures analyzerClassName.None? ==> r == Ok(TextMapper(DEFAULT_ANALYZER))
    ensures analyzerClassName.Some? ==> (r.Ok? <==> analyzerClassName.value in loadable)
    ensures analyzerClassName.Some? && r.Ok? ==> r.value.analyzer == ClassNamed(analyzerClassName.value)
    ensures r.Err? ==> r.error.IllegalArgument?
  {
    match analyzerClassName
    case None => Ok(TextMapper(DEFAULT_ANALYZER))
    case Some(className) =>
      match GetAnalyzer(className, loadable)
      case Ok(a) => Ok(TextMapper(a))
      case Err(e) => Err(e)
  }

  /** `indexValue`: null stays null, anything else becomes its `toString`. */
  function IndexValue(name: string, value: JavaObject): (r: Option<string>)
    ensures r.None? <==> value.Null?
    ensures r.Some? ==> r.value == ToString(value)
  {
    if value.Null? then None else Some(ToString(value))
  }

  /** `queryValue`: the same normalisation as for indexing. */
  function QueryValue(name: string, value: JavaObject): (r: Option<string>)
    ensures r == IndexValue(name, value)
    ensures r.None? <==> value.Null?
  {
    IndexValue(name, value)
  }

  /**
    `fields`: one unstored, tokenized field named `name` holding the index
    value; a null value makes the `TextField` constructor throw.
   */
  function Fields(name: string, value: JavaObject): (r: Result<seq<Field>, JavaError>)
    ensures r.Err? <==> value.Null?
    ensures r.Err? ==> r.error.IllegalArgument?
    ensures r.Ok? ==> |r.value| == 1 && r.value[0].name == name && r.value[0].store == No
    ensures r.Ok? ==> r.value[0].value.Tokenized? && IndexValue(name, value) == Some(r.value[0].value.analysed)
  {
    match TextField(name, IndexValue(name, value), STORE)
    case Ok(field) => Ok([field])
    case Err(e) => Err(e)
  }

  /** `sortField`: string sorting in the requested direction. */
  function SortField(field: string, reverse: bool): (r: Lucene.SortField)
    ensures r.field == field && r.sortType == STRING && r.reverse == reverse
  {
    Lucene.SortField(field, STRING, reverse)
  }

  /**
    A query built from a value matches the text indexed for that same value;
    a null value gives no query text and cannot be indexed.
   */
  lemma QueryMatchesIndexedText(name: string, queryName: string, value: JavaObject)
    ensures !value.Null? ==> QueryValue(queryName, value) == Some(Fields(name, value).value[0].value.analysed)
    ensures value.Null? ==> QueryValue(queryName, value).None? && Fields(name, value).Err?
  {
  }

  /** The values the unit tests pin down. */
  lemma IndexValueExamples()
    ensures IndexValue("test", Null) == None
    ensures IndexValue("test", JInteger(3)) == Some("3")
    ensures IndexValue("test", JInteger(-42)) == Some("-42")
    ensures IndexValue("test", JString("3.6")) == Some("3.6")
    ensures IndexValue("test", JOther("550e8400-e29b-41d4-a716-446655440000"))
              == Some("550e8400-e29b-41d4-a716-446655440000")
    ensures Fields("name", JString("hello")) == Ok([Field("name", Tokenized("hello"), No)])
    ensures Fields("name", Null) == Err(IllegalArgument("value cannot be null"))
  {
    assert JavaText.IntText(3) == "3";
    assert JavaText.NatText(4) == "4";
    assert JavaText.NatText(42) == "42";
    assert JavaText.IntText(-42) == "-" + "42" == "-42";
  }

  /** An analyser class the factory rejects makes construction fail. */
  lemma InvalidAnalyzerRejected(loadable: set<string>)
    requires "hello" !in loadable
    ensures New(Some("hello"), loadable).Err?
    ensures New(None, loadable) == Ok(TextMapper(Standard))
  {
  }
}

=== FILE: column_mappers.dfy ===
/**
  The `ColumnMapper` a schema holds under each name. The text and
  MessagePack mappers are modelled in full; any other kind of mapper is
  described only by what the schema asks of it: its analyser, the CQL types
  it supports and the fields it emits for a value.
 */
module ColumnMappers {
  import opened Base
  import opened JavaObjects
  import opened Lucene
  import opened Cassandra
  import opened MsgPackValues
  import T = ColumnMapperText
  import M = ColumnMapperMgsPack

  datatype ColumnMapper =
    | Text(text: T.TextMapper)
    | MgsPack(mgsPack: M.MgsPackMapper)
    | Other(otherAnalyzer: Option<Analyzer>, otherTypes: set<CqlType>,
            otherFields: (string, JavaObject) -> Result<seq<Field>, JavaError>)

  /** `ColumnMapper.analyzer()`; `None` stands for a null analyser. */
  function AnalyzerOf(m: ColumnMapper): Option<Analyzer> {
    match m
    case Text(t) => Some(t.analyzer)
    case MgsPack(_) => Some(Empty)
    case Other(a, _, _) => a
  }

  /** The CQL types the mapper was built with. */
  function SupportedTypes(m: ColumnMapper): set<CqlType> {
    match m
    case Text(_) => T.SUPPORTED_TYPES
    case MgsPack(_) => M.SUPPORTED_TYPES
    case Other(_, types, _) => types
  }

  /** `ColumnMapper.supports(type)`. */
  predicate Supports(m: ColumnMapper, t: CqlType) {
    t in SupportedTypes(m)
  }

  /** `ColumnMapper.fields(name, value)`; a MessagePack mapper decodes with `unpack`. */
  function Fields(m: ColumnMapper, unpack: Unpacker, name: string, value: JavaObject): Result<seq<Field>, JavaError> {
    match m
    case Text(t) => T.Fields(name, value)
    case MgsPack(p) => M.Fields(p, unpack, name, value)
    case Other(_, _, fields) => fields(name, value)
  }

  /** Both modelled mappers have an analyser; the MessagePack one indexes with the empty analyser. */
  lemma ModelledMappersHaveAnalyzers(m: ColumnMapper)
    requires !m.Other?
    ensures AnalyzerOf(m).Some?
    ensures m.MgsPack? ==> AnalyzerOf(m) == Some(Empty)
  {
  }

  /** Every type the MessagePack mapper accepts, the text mapper accepts too. */
  lemma MgsPackTypesAreTextTypes(t: T.TextMapper, p: M.MgsPackMapper, c: CqlType)
    ensures Supports(MgsPack(p), c) ==> Supports(Text(t), c)
    ensures Supports(MgsPack(p), c) <==> c in {Ascii, UTF8, Bytes}
  {
  }

  /** A text mapper emits exactly its one field for a non-null value, and throws for null. */
  lemma TextFieldsFailOnlyOnNull(t: T.TextMapper, unpack: Unpacker, name: string, value: JavaObject)
    ensures Fields(Text(t), unpack, name, value).Ok? <==> !value.Null?
    ensures !value.Null? ==> |Fields(Text(t), unpack, name, value).value| == 1
  {
  }
}

=== FILE: hex.dfy ===
/**
  The hexadecimal helper used for binary values: two lower-case digits per
  byte when encoding; decoding accepts either case and rejects an odd length
  or a character that is not a hex digit.
 */
module Hex {
  import opened Base
  import opened JavaText

  function HexDigit(n: int): (c: char)
    requires 0 <= n < 16
  {
    if n < 10 then ('0' as int + n) as char else ('a' as int + n - 10) as char
  }

  /** The value of a hex digit of either case, or None. */
  function DigitValue(c: char): (r: Option<int>)
    ensures r.Some? ==> 0 <= r.value < 16
  {
    if '0' <= c <= '9' then Some(c as int - '0' as int)
    else if 'a' <= c <= 'f' then Some(c as int - 'a' as int + 10)
    else if 'A' <= c <= 'F' then Some(c as int - 'A' as int + 10)
    else None
  }

  predicate IsLowerHexDigit(c: char) {
    '0' <= c <= '9' || 'a' <= c <= 'f'
  }

  /** `Hex.bytesToHex`. */
  function BytesToHex(bytes: seq<Byte>): (r: string)
    ensures |r| == 2 * |bytes|
    ensures forall i :: 0 <= i < |r| ==> IsLowerHexDigit(r[i])
  {
    if bytes == [] then ""
    else [HexDigit(bytes[0] / 16), HexDigit(bytes[0] % 16)] + BytesToHex(bytes[1..])
  }

  function PairsToBytes(s: string): (r: Result<seq<Byte>, JavaError>)
    requires |s| % 2 == 0
    decreases |s|
    ensures r.Err? ==> r.error == NumberFormat
    ensures r.Ok? ==> 2 * |r.value| == |s|
  {
    if s == [] then Ok([])
    else
      match (DigitValue(s[0]), DigitValue(s[1]))
      case (Some(hi), Some(lo)) =>
        (match PairsToBytes(s[2..])
         case Ok(rest) => Ok([hi * 16 + lo] + rest)
         case Err(e) => Err(e))
      case _ => Err(NumberFormat)
  }

  /** `Hex.hexToBytes`. */
  function HexToBytes(s: string): (r: Result<seq<Byte>, JavaError>)
    ensures r.Err? ==> r.error == NumberFormat
    ensures r.Ok? ==> 2 * |r.value| == |s|
  {
    if |s| % 2 == 1 then Err(NumberFormat) else PairsToBytes(s)
  }

  /** Decoding the encoding of a byte string gives the byte string back. */
  lemma {:induction false} HexRoundTrip(bytes: seq<Byte>)
    ensures HexToBytes(BytesToHex(bytes)) == Ok(bytes)
  {
    if bytes != [] {
      var b := bytes[0];
      var s := BytesToHex(bytes);
      HexRoundTrip(bytes[1..]);
      assert s[2..] == BytesToHex(bytes[1..]);
      assert DigitValue(s[0]) == Some(b / 16);
      assert DigitValue(s[1]) == Some(b % 16);
      assert bytes == [b] + bytes[1..];
    }
  }

  /** Hex text is already lower case. */
  lemma HexIsLower(bytes: seq<Byte>)
    ensures Lower(BytesToHex(bytes)) == BytesToHex(bytes)
  {
  }

  /** Hex text never contains the marker `0x`. */
  lemma HexHasNoMarker(bytes: seq<Byte>)
    ensures IndexOf(BytesToHex(bytes), "0x") == None
  {
    var s := BytesToHex(bytes);
    forall j | 0 <= j ensures !OccursAt(s, "0x", j) {
      if j + 2 <= |s| {
        assert s[j..j + 2][1] == s[j + 1] && IsLowerHexDigit(s[j + 1]);
      }
    }
  }
}

=== FILE: java_objects.dfy ===
/** The `Object` values a column hands to a mapper, and their `toString`. */
module JavaObjects {
  import opened Base
  import opened JavaText

  /**
    A column value before a mapper interprets it. Strings and boxed integers
    print themselves; for every other kind of object the text its `toString`
    returns is part of the value, since that method belongs to the object's
    own class.
   */
  datatype JavaObject =
    | Null
    | JString(s: string)
    | JInteger(i: int)
    | JByteArray(bytes: seq<Byte>, text: string)
    | JByteBuffer(bytes: seq<Byte>, text: string)   // the bytes between position and limit
    | JOther(text: string)

  /** `Object.toString` of a non-null value. */
  function ToString(o: JavaObject): string
    requires !o.Null?
  {
    match o
    case JString(s) => s
    case JInteger(i) => IntText(i)
    case JByteArray(_, text) => text
    case JByteBuffer(_, text) => text
    case JOther(text) => text
  }
}

=== FILE: java_text.dfy ===
/**
  The java.lang.String operations the schema layer relies on: case mapping,
  `compareTo`, `compareToIgnoreCase`, `replaceFirst` with a literal pattern,
  `split("\\.")` and the dotted join built with a `StringBuilder`.
  Case mapping covers the ASCII letters only.
 */
module JavaText {
  import opened Base

  // ---------------------------------------------------------------------------
  // Case mapping
  // ---------------------------------------------------------------------------

  function LowerChar(c: char): char {
    if 'A' <= c <= 'Z' then (c as int + 32) as char else c
  }

  function UpperChar(c: char): char {
    if 'a' <= c <= 'z' then (c as int - 32) as char else c
  }

  /** `String.toLowerCase`. */
  function Lower(s: string): (r: string)
    ensures |r| == |s|
    ensures forall i :: 0 <= i < |s| ==> r[i] == LowerChar(s[i])
  {
    seq(|s|, i requires 0 <= i < |s| => LowerChar(s[i]))
  }

  lemma LowerAppend(a: string, b: string)
    ensures Lower(a + b) == Lower(a) + Lower(b)
  {
  }

  // ---------------------------------------------------------------------------
  // Decimal text of an integer (`Integer.toString`, `Long.toString`, ...)
  // ---------------------------------------------------------------------------

  function DigitChar(d: int): char
    requires 0 <= d < 10
  {
    ('0' as int + d) as char
  }

  function NatText(n: nat): (r: string)
    decreases n
  {
    if n < 10 then [DigitChar(n)] else NatText(n / 10) + [DigitChar(n % 10)]
  }

  function IntText(i: int): string {
    if i < 0 then "-" + NatText(-i) else NatText(i)
  }

  // ---------------------------------------------------------------------------
  // First occurrence of a literal pattern, and `replaceFirst`
  // ---------------------------------------------------------------------------

  predicate OccursAt(s: string, pat: string, j: int) {
    0 <= j && j + |pat| <= |s| && s[j..j + |pat|] == pat
  }

  function IndexFrom(s: string, pat: string, from: nat): (r: Option<nat>)
    decreases |s| - from
    ensures r.Some? ==> from <= r.value && OccursAt(s, pat, r.value)
    ensures r.Some? ==> forall j :: from <= j < r.value ==> !OccursAt(s, pat, j)
    ensures r.None? ==> forall j :: from <= j ==> !OccursAt(s, pat, j)
  {
    if from + |pat| > |s| then None
    else if s[from..from + |pat|] == pat then Some(from)
    else IndexFrom(s, pat, from + 1)
  }

  /** `String.indexOf(pat)`: the first position where `pat` occurs, if any. */
  function IndexOf(s: string, pat: string): (r: Option<nat>)
    ensures r.Some? ==> OccursAt(s, pat, r.value)
    ensures r.Some? ==> forall j :: 0 <= j < r.value ==> !OccursAt(s, pat, j)
    ensures r.None? ==> forall j :: 0 <= j ==> !OccursAt(s, pat, j)
  {
    IndexFrom(s, pat, 0)
  }

  /** `String.replaceFirst(pat, rep)` for a pattern without regex metacharacters. */
  function ReplaceFirst(s: string, pat: string, rep: string): string {
    match IndexOf(s, pat)
    case None => s
    case Some(i) => s[..i] + rep + s[i + |pat|..]
  }

  // ---------------------------------------------------------------------------
  // `compareTo` and `compareToIgnoreCase`
  // ---------------------------------------------------------------------------

  /** `String.compareTo`: the difference of the first differing characters, else of the lengths. */
  function CompareTo(a: string, b: string): int
    decreases |a|
  {
    if a == [] || b == [] then |a| - |b|
    else if a[0] != b[0] then a[0] as int - b[0] as int
    else CompareTo(a[1..], b[1..])
  }

  /** `String.compareToIgnoreCase`: characters are compared after upper- then lower-casing. */
  function CompareToIgnoreCase(a: string, b: string): int
    decreases |a|
  {
    if a == [] || b == [] then |a| - |b|
    else
      var c1, c2 := a[0], b[0];
      if c1 != c2 && UpperChar(c1) != UpperChar(c2)
         && LowerChar(UpperChar(c1)) != LowerChar(UpperChar(c2))
      then LowerChar(UpperChar(c1)) as int - LowerChar(UpperChar(c2)) as int
      else CompareToIgnoreCase(a[1..], b[1..])
  }

  lemma {:induction false} CompareToAntisymmetric(a: string, b: string)
    ensures CompareTo(a, b) == -CompareTo(b, a)
  {
    if a != [] && b != [] && a[0] == b[0] {
      CompareToAntisymmetric(a[1..], b[1..]);
    }
  }

  lemma {:induction false} CompareToZeroIffEqual(a: string, b: string)
    ensures CompareTo(a, b) == 0 <==> a == b
  {
    if a != [] && b != [] && a[0] == b[0] {
      CompareToZeroIffEqual(a[1..], b[1..]);
      assert a == [a[0]] + a[1..];
      assert b == [b[0]] + b[1..];
    }
  }

  lemma {:induction false} CompareToTransitive(a: string, b: string, c: string)
    requires CompareTo(a, b) <= 0 && CompareTo(b, c) <= 0
    ensures CompareTo(a, c) <= 0
  {
    if a != [] && b != [] && c != [] && a[0] == b[0] && b[0] == c[0] {
      CompareToTransitive(a[1..], b[1..], c[1..]);
    }
  }

  /** Ignoring case is comparing the lower-cased texts. */
  lemma {:induction false} IgnoreCaseComparesLowered(a: string, b: string)
    ensures CompareToIgnoreCase(a, b) == CompareTo(Lower(a), Lower(b))
  {
    if a != [] && b != [] {
      assert Lower(a)[1..] == Lower(a[1..]);
      assert Lower(b)[1..] == Lower(b[1..]);
      IgnoreCaseComparesLowered(a[1..], b[1..]);
    }
  }

  // ---------------------------------------------------------------------------
  // `split("\\.")` and the dotted join
  // ---------------------------------------------------------------------------

  /** The pieces joined back with dots, as the `StringBuilder` loop of `Schema.getMapper` builds them. */
  function Join(parts: seq<string>): string {
    if parts == [] then ""
    else if |parts| == 1 then parts[0]
    else parts[0] + "." + Join(parts[1..])
  }

  /** Every piece between two dots, empty ones included. */
  function SplitAll(s: string): (r: seq<string>)
    decreases |s|
    ensures |r| >= 1
    ensures Join(r) == s
    ensures forall k :: 0 <= k < |r| ==> '.' !in r[k]
  {
    match IndexOf(s, ".")
    case None =>
      assert forall k :: 0 <= k < |s| ==> s[k] != '.' by {
        forall k | 0 <= k < |s| ensures s[k] != '.' {
          assert !OccursAt(s, ".", k) && s[k..k + 1] == [s[k]];
        }
      }
      [s]
    case Some(i) =>
      var rest := SplitAll(s[i + 1..]);
      assert forall k :: 0 <= k < i ==> s[..i][k] != '.' by {
        forall k | 0 <= k < i ensures s[..i][k] != '.' {
          assert !OccursAt(s, ".", k) && s[k..k + 1] == [s[k]];
        }
      }
      assert s == s[..i] + "." + s[i + 1..];
      [s[..i]] + rest
  }

  function DropTrailingEmpty(p: seq<string>): (r: seq<string>)
    ensures |r| <= |p| && r == p[..|r|]
    ensures r != [] ==> r[|r| - 1] != ""
    ensures forall k :: |r| <= k < |p| ==> p[k] == ""
  {
    if p != [] && p[|p| - 1] == "" then DropTrailingEmpty(p[..|p| - 1]) else p
  }

  /** `String.split("\\.")`: no dot gives the whole text; otherwise trailing empty pieces are dropped. */
  function Split(s: string): (r: seq<string>)
    ensures |r| <= |SplitAll(s)| && r == SplitAll(s)[..|r|]
    ensures |SplitAll(s)| == 1 ==> r == SplitAll(s)
    ensures forall piece :: piece in SplitAll(s)[|r|..] ==> piece == ""
    ensures |SplitAll(s)| > 1 && r != [] ==> r[|r| - 1] != ""
  {
    var pieces := SplitAll(s);
    if |pieces| == 1 then pieces else DropTrailingEmpty(pieces)
  }

  lemma {:induction false} JoinAt(parts: seq<string>, k: nat)
    requires 1 <= k < |parts|
    ensures Join(parts) == Join(parts[..k]) + "." + Join(parts[k..])
  {
    if k > 1 {
      JoinAt(parts[1..], k - 1);
      assert parts[1..][..k - 1] == parts[1..k];
      assert parts[1..][k - 1..] == parts[k..];
      assert parts[..k][1..] == parts[1..k];
    }
  }

  lemma NoDotNotFound(p: string)
    requires '.' !in p
    ensures IndexOf(p, ".") == None
  {
    forall j | 0 <= j < |p| ensures !OccursAt(p, ".", j) {
      assert p[j] in p && p[j..j + 1] == [p[j]];
    }
  }

  lemma FirstDotAfter(p: string, t: string)
    requires '.' !in p
    ensures IndexOf(p + "." + t, ".") == Some(|p|)
  {
    var s := p + "." + t;
    assert OccursAt(s, ".", |p|);
    forall j | 0 <= j < |p| ensures !OccursAt(s, ".", j) {
      assert p[j] in p && s[j..j + 1] == [p[j]];
    }
  }

  /** Splitting a join of dot-free pieces gives the pieces back. */
  lemma {:induction false} SplitAllJoin(parts: seq<string>)
    requires |parts| >= 1
    requires forall k :: 0 <= k < |parts| ==> '.' !in parts[k]
    ensures SplitAll(Join(parts)) == parts
  {
    if |parts| == 1 {
      NoDotNotFound(parts[0]);
    } else {
      var p, t := parts[0], Join(parts[1..]);
      SplitAllJoin(parts[1..]);
      FirstDotAfter(p, t);
      var s := p + "." + t;
      assert Join(parts) == s;
      assert s[..|p|] == p && s[|p| + 1..] == t;
      assert parts == [p] + parts[1..];
    }
  }
}

=== FILE: lucene.dfy ===
/**
  The Lucene and Cassandra records the mappers produce or consume, as plain
  values, and the document the schema fills in place.
 */
module Lucene {
  import opened Base

  datatype Store = Yes | No

  /** What a field indexes: an untokenized string, a double, or analysed text. */
  datatype FieldValue =
    | Exact(text: string)             // StringField
    | Numeric(number: real)           // DoubleField
    | Tokenized(analysed: string)     // TextField

  datatype Field = Field(name: string, value: FieldValue, store: Store)

  function StringField(name: string, text: string, store: Store): Field {
    Field(name, Exact(text), store)
  }

  function DoubleField(name: string, number: real, store: Store): Field {
    Field(name, Numeric(number), store)
  }

  /** `new TextField(name, text, store)`: Lucene's `Field` constructor rejects a null value. */
  function TextField(name: string, text: Option<string>, store: Store): (r: Result<Field, JavaError>)
    ensures r.Err? <==> text.None?
    ensures r.Err? ==> r.error == IllegalArgument("value cannot be null")
    ensures r.Ok? ==> r.value.name == name && r.value.value == Tokenized(text.value) && r.value.store == store
  {
    if text.None? then Err(IllegalArgument("value cannot be null")) else Ok(Field(name, Tokenized(text.value), store))
  }

  datatype SortType = STRING | LONG | DOUBLE

  datatype SortField = SortField(field: string, sortType: SortType, reverse: bool)

  /** An analyser, identified by what built it. */
  datatype Analyzer =
    | Standard                   // Schema.DEFAULT_ANALYZER, a StandardAnalyzer
    | Empty                      // ColumnMapper.EMPTY_ANALYZER
    | ClassNamed(className: string)

  /** `Schema.DEFAULT_ANALYZER`. */
  const DEFAULT_ANALYZER: Analyzer := Standard

  /**
    `AnalyzerFactory.getAnalyzer`: the factory can instantiate exactly the
    class names in `loadable`; any other name is an IllegalArgumentException
    carrying that name.
   */
  function GetAnalyzer(className: string, loadable: set<string>): (r: Result<Analyzer, JavaError>)
    ensures r.Ok? <==> className in loadable
    ensures r.Ok? ==> r.value == ClassNamed(className)
    ensures r.Err? ==> r.error == IllegalArgument(className)
  {
    if className in loadable then Ok(ClassNamed(className)) else Err(IllegalArgument(className))
  }

  /** A Lucene document: the fields added so far, in order. */
  class Document {
    var fields: seq<Field>

    constructor ()
      ensures fields == []
    {
      fields := [];
    }

    method Add(field: Field)
      modifies this
      ensures fields == old(fields) + [field]
    {
      fields := fields + [field];
    }
  }
}

/** Cassandra's side: CQL types, column definitions, and the decoded columns of a row. */
module Cassandra {
  import opened Base
  import opened JavaObjects

  datatype CqlType =
    | Ascii | UTF8 | Int32 | Long | Varint | FloatType | DoubleType | BooleanType
    | UUIDType | TimeUUIDType | Timestamp | Bytes | Inet
    | Counter | Decimal | Custom(className: string)

  datatype ColumnDefinition = ColumnDefinition(isStatic: bool, cqlType: CqlType)

  /** `CFMetaData.getColumnDefinition`, keyed by column name. */
  type Metadata = map<string, ColumnDefinition>

  /**
    One decoded cell: its logical `name`, the `fieldName` its index fields are
    emitted under, the map key it came from (`nameSuffix`), and its value.
   */
  datatype Column = Column(name: string, fieldName: string, nameSuffix: Option<string>, value: JavaObject)
}

/** What every column mapper shares. */
module ColumnMapperBase {
  import opened Lucene

  /** `ColumnMapper.STORE`: mapper fields are indexed, not stored. */
  const STORE: Store := No
}

=== FILE: msgpack_values.dfy ===
/**
  A MessagePack value once decoded, following the MessagePack type system:
  nil, boolean, integer, float, string, binary, array, map and extension.
 */
module MsgPackValues {
  import opened Base
  import opened JavaText

  datatype MsgValue =
    | Nil
    | Boolean(b: bool)
    | Integer(i: int)
    | Float(f: real, text: string)   // `text` is how the library prints the double
    | Str(s: string)
    | Binary(bytes: seq<Byte>)
    | Array(items: seq<MsgValue>)
    | Map(entries: seq<(MsgValue, MsgValue)>)
    | Extended(extType: int, data: seq<Byte>)

  /**
    The MessagePack decoder (`MessagePack.newDefaultUnpacker(data).unpackValue`):
    None stands for the IOException it raises on bytes it cannot decode.
   */
  type Unpacker = seq<Byte> -> Option<MsgValue>

  predicate IsNumber(v: MsgValue) {
    v.Integer? || v.Float?
  }

  /** A string or a boolean: the values compared by their text. */
  predicate IsTextual(v: MsgValue) {
    v.Str? || v.Boolean?
  }

  /** `asNumber().toDouble()`, without rounding. */
  function NumberOf(v: MsgValue): real
    requires IsNumber(v)
  {
    if v.Integer? then v.i as real else v.f
  }

  function BooleanText(b: bool): string {
    if b then "true" else "false"
  }

  /** The text of a string, or "true"/"false" for a boolean. */
  function TextOf(v: MsgValue): string
    requires IsTextual(v)
  {
    if v.Str? then v.s else BooleanText(v.b)
  }

  /** The key kinds a map entry may have to be flattened. */
  predicate IsKey(v: MsgValue) {
    IsNumber(v) || IsTextual(v)
  }

  /** `toString()` of a key. */
  function KeyText(v: MsgValue): string
    requires IsKey(v)
  {
    match v
    case Integer(i) => IntText(i)
    case Float(_, text) => text
    case Str(s) => s
    case Boolean(b) => BooleanText(b)
  }
}

=== FILE: schema.dfy ===
/**
  The schema of a Lucene index over a Cassandra table (Schema.java): the
  column mappers by name, the default and per-field analysers, validation
  against the table's columns, name resolution by dotted prefix, and the
  filling of a Lucene document from a row's columns.
 */
module Schemas {
  import opened Base
  import opened JavaText
  import opened JavaObjects
  import opened Lucene
  import opened Cassandra
  import opened MsgPackValues
  import opened ColumnMappers

  // ---------------------------------------------------------------------------
  // Name resolution
  // ---------------------------------------------------------------------------

  /**
    The field name without its last component, as the `StringBuilder` loop of
    `getMapper` rebuilds it from `split("\\.")`: the first `n - 1` of the `n`
    components, joined with dots.
   */
  function Parent(field: string): (p: string)
    requires |Split(field)| >= 2
    ensures p + "." <= field
  {
    var all := SplitAll(field);
    var n := |Split(field)|;
    JoinAt(all, n - 1);
    assert Split(field)[..n - 1] == all[..n - 1];
    Join(Split(field)[..n - 1])
  }

  /**
    `Schema.getMapper`: the mapper registered under `field`, else the mapper
    found for its parent name, and nothing once fewer than two components
    are left.
   */
  function GetMapper<M>(mappers: map<string, M>, field: string): (r: Option<M>)
    decreases |field|
    ensures r.Some? ==> exists n :: n in mappers && mappers[n] == r.value
  {
    if field in mappers then Some(mappers[field])
    else if |Split(field)| < 2 then None
    else GetMapper(mappers, Parent(field))
  }

  /** What `getMapper` finds is registered under the name itself or under a dotted prefix of it. */
  lemma {:induction false} GetMapperFindsDottedPrefix<M>(mappers: map<string, M>, field: string)
    decreases |field|
    ensures GetMapper(mappers, field).Some? ==>
              exists p :: p in mappers && mappers[p] == GetMapper(mappers, field).value && (p == field || p + "." <= field)
  {
    if field !in mappers && |Split(field)| >= 2 {
      var parent := Parent(field);
      GetMapperFindsDottedPrefix(mappers, parent);
      if GetMapper(mappers, field).Some? {
        var p :| p in mappers && mappers[p] == GetMapper(mappers, parent).value && (p == parent || p + "." <= parent);
        assert p + "." <= field by {
          if p != parent {
            assert (p + ".") == parent[..|p| + 1];
            assert parent[..|p| + 1] == field[..|p| + 1];
          }
        }
      }
    }
  }

  /** The components of a name that has no empty component. */
  predicate ProperComponents(comps: seq<string>) {
    |comps| >= 1 && forall k :: 0 <= k < |comps| ==> comps[k] != "" && '.' !in comps[k]
  }

  lemma SplitOfProperJoin(comps: seq<string>)
    requires ProperComponents(comps)
    ensures Split(Join(comps)) == comps
  {
    SplitAllJoin(comps);
  }

  /** The mapper of the longest leading run of components that names one, if any. */
  function LongestPrefixMapper<M>(mappers: map<string, M>, comps: seq<string>): Option<M>
    decreases |comps|
  {
    if comps == [] then None
    else if Join(comps) in mappers then Some(mappers[Join(comps)])
    else LongestPrefixMapper(mappers, comps[..|comps| - 1])
  }

  /** `LongestPrefixMapper` finds a mapper exactly when some run names one, and picks the longest such run. */
  lemma {:induction false} LongestPrefixMapperIsLongest<M>(mappers: map<string, M>, comps: seq<string>)
    decreases |comps|
    ensures LongestPrefixMapper(mappers, comps).Some? <==> exists k :: 1 <= k <= |comps| && Join(comps[..k]) in mappers
    ensures forall k :: 1 <= k <= |comps| && Join(comps[..k]) in mappers
                        && (forall j :: k < j <= |comps| ==> Join(comps[..j]) !in mappers)
                        ==> LongestPrefixMapper(mappers, comps) == Some(mappers[Join(comps[..k])])
  {
    var n := |comps|;
    if n > 0 {
      assert comps[..n] == comps;
      if Join(comps) !in mappers {
        var init := comps[..n - 1];
        LongestPrefixMapperIsLongest(mappers, init);
        assert forall k :: 1 <= k <= n - 1 ==> init[..k] == comps[..k];
      }
    }
  }

  /** For a name made of non-empty components, `getMapper` is the longest-prefix lookup. */
  lemma {:induction false} GetMapperIsLongestPrefix<M>(mappers: map<string, M>, comps: seq<string>)
    requires ProperComponents(comps)
    decreases |comps|
    ensures GetMapper(mappers, Join(comps)) == LongestPrefixMapper(mappers, comps)
  {
    var n := |comps|;
    if Join(comps) !in mappers {
      if n == 1 {
        GetMapperSingleMiss(mappers, comps);
      } else {
        var init := comps[..n - 1];
        GetMapperDropsLast(mappers, comps);
        GetMapperIsLongestPrefix(mappers, init);
      }
    }
  }

  /** An unregistered name of one non-empty component resolves to nothing. */
  lemma GetMapperSingleMiss<M>(mappers: map<string, M>, comps: seq<string>)
    requires ProperComponents(comps) && |comps| == 1
    requires Join(comps) !in mappers
    ensures GetMapper(mappers, Join(comps)) == None == LongestPrefixMapper(mappers, comps)
  {
    SplitOfProperJoin(comps);
    assert comps[..0] == [];
  }

  /**
    For a name whose components are all non-empty, `getMapper` finds a mapper
    exactly when some leading run of components names one, and then it is the
    mapper of the longest such run.
   */
  lemma GetMapperLongestPrefix<M>(mappers: map<string, M>, comps: seq<string>)
    requires ProperComponents(comps)
    ensures GetMapper(mappers, Join(comps)).Some? <==> exists k :: 1 <= k <= |comps| && Join(comps[..k]) in mappers
    ensures forall k :: 1 <= k <= |comps| && Join(comps[..k]) in mappers
                        && (forall j :: k < j <= |comps| ==> Join(comps[..j]) !in mappers)
                        ==> GetMapper(mappers, Join(comps)) == Some(mappers[Join(comps[..k])])
  {
    GetMapperIsLongestPrefix(mappers, comps);
    LongestPrefixMapperIsLongest(mappers, comps);
  }

  /** On a miss, a name of two or more non-empty components resolves as the name without its last one. */
  lemma GetMapperDropsLast<M>(mappers: map<string, M>, comps: seq<string>)
    requires ProperComponents(comps) && |comps| >= 2
    requires Join(comps) !in mappers
    ensures ProperComponents(comps[..|comps| - 1])
    ensures GetMapper(mappers, Join(comps)) == GetMapper(mappers, Join(comps[..|comps| - 1]))
    ensures LongestPrefixMapper(mappers, comps) == LongestPrefixMapper(mappers, comps[..|comps| - 1])
  {
    SplitOfProperJoin(comps);
    assert Parent(Join(comps)) == Join(comps[..|comps| - 1]);
  }

  /** A dotted name resolves to the mapper of its registered head: "address.city" to "address". */
  lemma GetMapperNestedExample<M>(address: M)
    ensures GetMapper(map["address" := address], "address") == Some(address)
    ensures GetMapper(map["address" := address], "address.city") == Some(address)
  {
    var comps := ["address", "city"];
    assert Join(comps) == "address.city";
    assert comps[..1] == ["address"] && Join(comps[..1]) == "address";
    assert comps[..2] == comps;
    GetMapperLongestPrefix(map["address" := address], comps);
  }

  /** A one-component name that is not registered resolves to nothing, as "age" in an empty schema. */
  lemma GetMapperMissExample<M>(address: M)
    ensures GetMapper<M>(map[], "age") == None
    ensures GetMapper(map["address" := address], "phone") == None
  {
    SplitOfProperJoin(["phone"]);
    SplitOfProperJoin(["age"]);
  }

  /**
    `split` drops trailing empty components and keeps inner ones, so "a." is
    never resolved to "a", and neither is "a..b", whose parent is "a.".
   */
  lemma EmptyComponentsStopResolution<M>(a: M)
    ensures GetMapper(map["a" := a], "a") == Some(a)
    ensures GetMapper(map["a" := a], "a.") == None
    ensures GetMapper(map["a" := a], "a..b") == None
  {
    SplitTrailingDot();
    SplitInnerEmpty();
  }

  lemma SplitTrailingDot()
    ensures Split("a.") == ["a"]
  {
    SplitAllJoin(["a", ""]);
    assert Join(["a", ""]) == "a.";
  }

  lemma SplitInnerEmpty()
    ensures Split("a..b") == ["a", "", "b"]
    ensures Parent("a..b") == "a."
  {
    SplitAllJoin(["a", "", "b"]);
    assert Join(["a", "", "b"]) == "a..b";
    assert ["a", "", "b"][..2] == ["a", ""];
    assert Join(["a", ""]) == "a.";
  }

  // ---------------------------------------------------------------------------
  // Validation
  // ---------------------------------------------------------------------------

  /** The exception `validate` throws for one mapper, checked in the order the source checks. */
  function MapperError(name: string, mapper: ColumnMapper, metadata: Metadata): (e: Option<JavaError>)
    ensures e.None? <==> name in metadata && !metadata[name].isStatic && Supports(mapper, metadata[name].cqlType)
    ensures name !in metadata ==> e == Some(Runtime("No column definition for mapper " + name))
    ensures name in metadata && metadata[name].isStatic ==>
              e == Some(Runtime("Lucene indexes are not allowed on static columns as " + name))
    ensures name in metadata && !metadata[name].isStatic && !Supports(mapper, metadata[name].cqlType) ==>
              e == Some(Runtime("Not supported type for mapper " + name))
  {
    if name !in metadata then Some(Runtime("No column definition for mapper " + name))
    else if metadata[name].isStatic then Some(Runtime("Lucene indexes are not allowed on static columns as " + name))
    else if !Supports(mapper, metadata[name].cqlType) then Some(Runtime("Not supported type for mapper " + name))
    else None
  }

  // ---------------------------------------------------------------------------
  // Document filling
  // ---------------------------------------------------------------------------

  /** The fields appended for some columns, and the exception that stopped the loop, if any. */
  datatype Emission = Emission(fields: seq<Field>, error: Option<JavaError>)

  /** The key-name field of a map cell: present when the suffix is non-null and non-empty. */
  function SuffixFields(c: Column): (fs: seq<Field>)
    ensures |fs| <= 1
    ensures |fs| == 1 <==> c.nameSuffix.Some? && c.nameSuffix.value != ""
    ensures |fs| == 1 ==> fs[0] == StringField(c.name, c.nameSuffix.value, No)
  {
    if c.nameSuffix.Some? && c.nameSuffix.value != "" then [StringField(c.name, c.nameSuffix.value, No)] else []
  }

  /** What one column appends: its key-name field, then the fields of the mapper its name resolves to. */
  function EmitColumn(mappers: map<string, ColumnMapper>, unpack: Unpacker, c: Column): (e: Emission)
    ensures SuffixFields(c) <= e.fields
    ensures GetMapper(mappers, c.name).None? ==> e == Emission(SuffixFields(c), None)
  {
    var suffix := SuffixFields(c);
    match GetMapper(mappers, c.name)
    case None => Emission(suffix, None)
    case Some(m) =>
      match ColumnMappers.Fields(m, unpack, c.fieldName, c.value)
      case Ok(fs) => Emission(suffix + fs, None)
      case Err(err) => Emission(suffix, Some(err))
  }

  /** A column whose name resolves to mapper `m` appends its key-name field and then `m`'s fields, unless `m` throws. */
  lemma EmitMappedColumn(mappers: map<string, ColumnMapper>, unpack: Unpacker, c: Column, m: ColumnMapper,
                         r: Result<seq<Field>, JavaError>)
    requires GetMapper(mappers, c.name) == Some(m)
    requires r == ColumnMappers.Fields(m, unpack, c.fieldName, c.value)
    ensures r.Ok? ==> EmitColumn(mappers, unpack, c) == Emission(SuffixFields(c) + r.value, None)
    ensures r.Err? ==> EmitColumn(mappers, unpack, c) == Emission(SuffixFields(c), Some(r.error))
  {
  }

  /** One pass of the `addFields` loop as a function value, for the loop lemmas below. */
  function Step(mappers: map<string, ColumnMapper>, unpack: Unpacker): (step: Column -> Emission)
    ensures forall c :: step(c) == EmitColumn(mappers, unpack, c)
  {
    c => EmitColumn(mappers, unpack, c)
  }

  /** The `addFields` loop for any per-column step: the steps' fields in order, up to the first exception. */
  function EmittedBy(step: Column -> Emission, columns: seq<Column>): (e: Emission)
    ensures columns != [] ==> step(columns[0]).fields <= e.fields
  {
    if columns == [] then Emission([], None)
    else
      var first := step(columns[0]);
      if first.error.Some? then first
      else
        var rest := EmittedBy(step, columns[1..]);
        Emission(first.fields + rest.fields, rest.error)
  }

  /** What `addFields` appends for a row, column after column, up to the first exception. */
  function Emitted(mappers: map<string, ColumnMapper>, unpack: Unpacker, columns: seq<Column>): (e: Emission)
    ensures columns != [] ==> SuffixFields(columns[0]) <= e.fields
  {
    EmittedBy(Step(mappers, unpack), columns)
  }

  /** Only a column whose name resolves to a mapper can make `addFields` throw. */
  lemma {:induction false} EmittedErrorNeedsMapper(mappers: map<string, ColumnMapper>, unpack: Unpacker, columns: seq<Column>)
    ensures Emitted(mappers, unpack, columns).error.Some? ==>
              exists k :: 0 <= k < |columns| && GetMapper(mappers, columns[k].name).Some?
  {
    if columns != [] && EmitColumn(mappers, unpack, columns[0]).error.None? {
      EmittedErrorNeedsMapper(mappers, unpack, columns[1..]);
      if Emitted(mappers, unpack, columns[1..]).error.Some? {
        var k :| 0 <= k < |columns[1..]| && GetMapper(mappers, columns[1..][k].name).Some?;
        assert columns[1..][k] == columns[k + 1];
      }
    }
  }

  /** Filling a document for a row is filling it for a first part of the row, then for the rest. */
  lemma {:induction false} EmittedConcat(step: Column -> Emission, a: seq<Column>, b: seq<Column>)
    ensures EmittedBy(step, a).error.Some? ==> EmittedBy(step, a + b) == EmittedBy(step, a)
    ensures EmittedBy(step, a).error.None? ==>
              EmittedBy(step, a + b) == Emission(EmittedBy(step, a).fields + EmittedBy(step, b).fields, EmittedBy(step, b).error)
  {
    if a == [] {
      assert a + b == b;
    } else {
      var first := step(a[0]);
      assert (a + b)[0] == a[0];
      assert (a + b)[1..] == a[1..] + b;
      EmittedConcat(step, a[1..], b);
      if first.error.None? {
        var x, y := EmittedBy(step, a[1..]).fields, EmittedBy(step, b).fields;
        assert first.fields + (x + y) == (first.fields + x) + y;
      }
    }
  }

  lemma EmittedOne(step: Column -> Emission, c: Column)
    ensures EmittedBy(step, [c]) == step(c)
  {
    var e := step(c);
    if e.error.None? {
      assert [c][1..] == [];
      assert e.fields + [] == e.fields;
    }
  }

  /** One more column: what the prefix appended, then what that column appends. */
  lemma EmittedStep(step: Column -> Emission, columns: seq<Column>, i: nat)
    requires i < |columns|
    requires EmittedBy(step, columns[..i]).error.None?
    ensures EmittedBy(step, columns[..i + 1])
              == Emission(EmittedBy(step, columns[..i]).fields + step(columns[i]).fields, step(columns[i]).error)
  {
    var done, c := columns[..i], columns[i];
    assert columns[..i + 1] == done + [c];
    EmittedOne(step, c);
    EmittedConcat(step, done, [c]);
  }

  /** Once a prefix of the row has thrown, the rest of the row adds nothing. */
  lemma EmittedStops(step: Column -> Emission, columns: seq<Column>, i: nat)
    requires i <= |columns|
    requires EmittedBy(step, columns[..i]).error.Some?
    ensures EmittedBy(step, columns) == EmittedBy(step, columns[..i])
  {
    EmittedConcat(step, columns[..i], columns[i..]);
    assert columns[..i] + columns[i..] == columns;
  }

  /** How one pass of the `addFields` loop moves a document already holding `before` plus the fields of the first `i` columns. */
  lemma AddFieldsStep(step: Column -> Emission, columns: seq<Column>, i: nat, before: seq<Field>)
    requires i < |columns|
    requires EmittedBy(step, columns[..i]).error.None?
    ensures var e := step(columns[i]);
            e.error.None? ==>
              EmittedBy(step, columns[..i + 1]).error.None?
              && before + EmittedBy(step, columns[..i]).fields + e.fields == before + EmittedBy(step, columns[..i + 1]).fields
    ensures var e := step(columns[i]);
            e.error.Some? ==>
              EmittedBy(step, columns).error == e.error
              && before + EmittedBy(step, columns[..i]).fields + e.fields == before + EmittedBy(step, columns).fields
  {
    EmittedStep(step, columns, i);
    var e := step(columns[i]);
    var done := EmittedBy(step, columns[..i]).fields;
    if e.error.Some? {
      EmittedStops(step, columns, i + 1);
    }
    assert before + done + e.fields == before + (done + e.fields);
  }

  /**
    A schema made only of text mappers fills a row without throwing exactly
    when no column that resolves to a mapper holds null; otherwise the
    `TextField` constructor throws IllegalArgumentException.
   */
  lemma {:induction false} TextSchemasFailOnlyOnNull(mappers: map<string, ColumnMapper>, unpack: Unpacker, columns: seq<Column>)
    requires forall n :: n in mappers ==> mappers[n].Text?
    ensures Emitted(mappers, unpack, columns).error.None? <==>
              forall k :: 0 <= k < |columns| && GetMapper(mappers, columns[k].name).Some? ==> !columns[k].value.Null?
    ensures Emitted(mappers, unpack, columns).error.Some? ==> Emitted(mappers, unpack, columns).error.value.IllegalArgument?
  {
    if columns != [] {
      var c := columns[0];
      var found := GetMapper(mappers, c.name);
      if found.Some? {
        var n :| n in mappers && mappers[n] == found.value;
        EmitMappedColumn(mappers, unpack, c, found.value, ColumnMappers.Fields(found.value, unpack, c.fieldName, c.value));
      }
      TextSchemasFailOnlyOnNull(mappers, unpack, columns[1..]);
      assert forall k :: 0 <= k < |columns| - 1 ==> columns[1..][k] == columns[k + 1];
    }
  }

  /** A column whose name resolves to no mapper adds at most its key-name field. */
  lemma UnmappedColumnsAddOnlyKeyNames(mappers: map<string, ColumnMapper>, unpack: Unpacker, columns: seq<Column>)
    requires forall k :: 0 <= k < |columns| ==> GetMapper(mappers, columns[k].name).None?
    ensures Emitted(mappers, unpack, columns).error.None?
    ensures forall f :: f in Emitted(mappers, unpack, columns).fields ==> f.value.Exact? && f.store == No
    ensures forall f :: f in Emitted(mappers, unpack, columns).fields ==>
              exists k :: 0 <= k < |columns| && f in SuffixFields(columns[k])
  {
    if columns != [] {
      UnmappedColumnsAddOnlyKeyNames(mappers, unpack, columns[1..]);
      assert forall k :: 0 <= k < |columns| - 1 ==> columns[1..][k] == columns[k + 1];
    }
  }

  // ---------------------------------------------------------------------------
  // The schema
  // ---------------------------------------------------------------------------

  /** The per-field analyser table holds exactly the mappers that have an analyser, with that analyser. */
  ghost predicate IsAnalyzerTable(table: map<string, Analyzer>, mappers: map<string, ColumnMapper>) {
    (forall n :: n in table <==> n in mappers && AnalyzerOf(mappers[n]).Some?)
    && (forall n :: n in table ==> n in mappers && AnalyzerOf(mappers[n]) == Some(table[n]))
  }

  class Schema {
    const defaultAnalyzer: Analyzer
    const perFieldAnalyzers: map<string, Analyzer>
    const columnMappers: map<string, ColumnMapper>

    /** The analyser table is built by visiting the mappers one by one, in no particular order. */
    constructor (defaultAnalyzer: Analyzer, columnMappers: map<string, ColumnMapper>)
      ensures this.defaultAnalyzer == defaultAnalyzer
      ensures this.columnMappers == columnMappers
      ensures IsAnalyzerTable(perFieldAnalyzers, columnMappers)
    {
      var analyzers: map<string, Analyzer> := map[];
      var remaining := columnMappers.Keys;
      while remaining != {}
        invariant remaining <= columnMappers.Keys
        invariant forall n :: n in analyzers <==> n in columnMappers && n !in remaining && AnalyzerOf(columnMappers[n]).Some?
        invariant forall n :: n in analyzers ==> n in columnMappers && AnalyzerOf(columnMappers[n]) == Some(analyzers[n])
        decreases remaining
      {
        var name :| name in remaining;
        var fieldAnalyzer := AnalyzerOf(columnMappers[name]);
        if fieldAnalyzer.Some? {
          analyzers := analyzers[name := fieldAnalyzer.value];
        }
        remaining := remaining - {name};
      }
      this.defaultAnalyzer := defaultAnalyzer;
      this.columnMappers := columnMappers;
      perFieldAnalyzers := analyzers;
    }

    /**
      The JSON constructor: no analyser class name means `DEFAULT_ANALYZER`,
      and a name the analyser factory cannot load throws before any table is built.
     */
    static method Create(analyzerClassName: Option<string>, columnMappers: map<string, ColumnMapper>, loadable: set<string>)
      returns (r: Result<Schema, JavaError>)
      ensures analyzerClassName.None? ==> r.Ok? && r.value.defaultAnalyzer == DEFAULT_ANALYZER
      ensures analyzerClassName.Some? ==> (r.Ok? <==> analyzerClassName.value in loadable)
      ensures analyzerClassName.Some? && r.Ok? ==> r.value.defaultAnalyzer == ClassNamed(analyzerClassName.value)
      ensures r.Err? ==> analyzerClassName.Some? && r.error == IllegalArgument(analyzerClassName.value)
      ensures r.Ok? ==> fresh(r.value) && r.value.columnMappers == columnMappers
      ensures r.Ok? ==> IsAnalyzerTable(r.value.perFieldAnalyzers, columnMappers)
    {
      var defaultAnalyzer := DEFAULT_ANALYZER;
      if analyzerClassName.Some? {
        var loaded := GetAnalyzer(analyzerClassName.value, loadable);
        if loaded.Err? {
          return Err(loaded.error);
        }
        defaultAnalyzer := loaded.value;
      }
      var schema := new Schema(defaultAnalyzer, columnMappers);
      return Ok(schema);
    }

    /**
      `validate`: passes exactly when every mapper names a non-static column
      of a type it supports; otherwise throws the first failed check of a
      mapper that fails, mappers being visited in no particular order.
     */
    method Validate(metadata: Metadata) returns (r: Outcome<JavaError>)
      ensures r.Pass? <==> forall n :: n in columnMappers ==>
                n in metadata && !metadata[n].isStatic && Supports(columnMappers[n], metadata[n].cqlType)
      ensures r.Fail? ==> exists n :: n in columnMappers && MapperError(n, columnMappers[n], metadata) == Some(r.error)
    {
      var remaining := columnMappers.Keys;
      while remaining != {}
        invariant remaining <= columnMappers.Keys
        invariant forall n :: n in columnMappers && n !in remaining ==> MapperError(n, columnMappers[n], metadata).None?
        decreases remaining
      {
        var name :| name in remaining;
        var error := MapperError(name, columnMappers[name], metadata);
        if error.Some? {
          return Fail(error.value);
        }
        remaining := remaining - {name};
      }
      return Pass;
    }

    /** The inner loop of `addFields`: every field of one mapper, in order. */
    static method AddAll(document: Document, fields: seq<Field>)
      modifies document
      ensures document.fields == old(document.fields) + fields
    {
      var j := 0;
      while j < |fields|
        invariant 0 <= j <= |fields|
        invariant document.fields == old(document.fields) + fields[..j]
      {
        document.Add(fields[j]);
        assert fields[..j + 1] == fields[..j] + [fields[j]];
        j := j + 1;
      }
      assert fields[..j] == fields;
    }

    /** The key-name field of a map cell, when it has a non-empty one. */
    static method AddKeyName(document: Document, column: Column)
      modifies document
      ensures document.fields == old(document.fields) + SuffixFields(column)
    {
      if column.nameSuffix.Some? && column.nameSuffix.value != "" {
        document.Add(StringField(column.name, column.nameSuffix.value, No));
      }
    }

    /** One pass of the `addFields` loop: the key-name field, then the fields of the column's mapper. */
    method AddColumn(document: Document, column: Column, unpack: Unpacker) returns (err: Option<JavaError>)
      modifies document
      ensures document.fields == old(document.fields) + EmitColumn(columnMappers, unpack, column).fields
      ensures err == EmitColumn(columnMappers, unpack, column).error
    {
      var columnMapper := GetMapper(columnMappers, column.name);
      AddKeyName(document, column);
      if columnMapper.None? {
        return None;
      }
      var fields := ColumnMappers.Fields(columnMapper.value, unpack, column.fieldName, column.value);
      EmitMappedColumn(columnMappers, unpack, column, columnMapper.value, fields);
      if fields.Err? {
        return Some(fields.error);
      }
      AddAll(document, fields.value);
      assert old(document.fields) + SuffixFields(column) + fields.value
             == old(document.fields) + (SuffixFields(column) + fields.value);
      return None;
    }

    /**
      `addFields`: appends to `document`, column by column, the key-name
      field and then the fields of the mapper the column's name resolves to,
      emitted under the column's field name. An exception from a mapper
      stops the loop, leaving what was appended so far.
     */
    method AddFields(document: Document, columns: seq<Column>, unpack: Unpacker) returns (err: Option<JavaError>)
      modifies document
      ensures document.fields == old(document.fields) + Emitted(columnMappers, unpack, columns).fields
      ensures err == Emitted(columnMappers, unpack, columns).error
    {
      var step := Step(columnMappers, unpack);
      var i := 0;
      while i < |columns|
        invariant 0 <= i <= |columns|
        invariant EmittedBy(step, columns[..i]).error.None?
        invariant document.fields == old(document.fields) + EmittedBy(step, columns[..i]).fields
      {
        AddFieldsStep(step, columns, i, old(document.fields));
        err := AddColumn(document, columns[i], unpack);
        if err.Some? {
          return;
        }
        i := i + 1;
      }
      assert columns[..i] == columns;
      return None;
    }
  }
}
